=== FILE: README.md ===
# TwistedBot proxy, bounding boxes and materials in Dafny

A Dafny model of three pieces of the TwistedBot repository.

- **The man-in-the-middle proxy** (`proxy.py`). The proxy sits between a game client and its server and defeats the protocol's encryption handshake. Two protocol objects make up one proxied connection. `ProxyClientProtocol` faces the real client and `ProxyServerProtocol` faces the real server. Each holds an `encryption_on` flag, a `leftover` byte buffer and a `parser`, which is either the plaintext handler or the encrypted one. The model is a pure transition function over a `Session` record (client link, server link, whether the server connection exists, the stored key reply, and a count of random draws). Each transition returns an `Outcome`: either the new session together with its effects (bytes written to either transport, calls of the packet processor), or a crash.
  - The packet codec and the crypto provider are records of functions (`Codec`, `Crypto`) passed in as parameters. Every property therefore holds for any codec and any cipher. A property that needs the cipher or RSA to undo itself says so as a precondition (`Inverts`, `RsaInverts`). So does a property that needs a true stream cipher, one that preserves length and does not care how its input is cut into calls (`IsStream`).
  - A stateful stream cipher object is its key, its IV and the plaintext it has processed so far (`CipherState`).
- **Axis-aligned boxes** (`twistedbot/axisbox.py`). `AABB` is an immutable record of six reals. It supports offset, `+`/`-`, shift, extend_to, expand, union, intersection, width/height/depth, copy, `__eq__`, `from_block_cube` and `from_two_points`.
- **Block materials** (`twistedbot/materials.py`). The class statements are kept as an ordered table, and a name resolves to its last definition, as Python rebinding does. This is how the second `MaterialPortal` shadows the first. The module-level material instances are constants.

Files: `wrappers.dfy` (Option), `proxy_wire.dfy` (bytes, packets, codec, crypto, cipher state), `proxy_session.dfy` (protocol objects, handlers, `Step`), `proxy_properties.dfy` (properties over several calls), `axisbox.dfy`, `materials.dfy`.

Facts about the code that the model keeps:
- The code has no explicit handshake-state variable. Its state is the two flags, the ciphers and the stored reply. A second key request from the server overwrites the stored reply rather than being refused.
- The RSA key pair belongs to `ProxyClientFactory` (proxy.py:219-220). It is shared by every connection, not made per session. It is a field of `Config`.
- Ping (254) and disconnect (255), and the server's 252 confirmation, resend the whole parsed buffer (`data`), not just the matched packet. A disconnect does not tear anything down.
- Starting encryption twice is not rejected; the flag is simply set again.

## Model

| member | source | states |
|---|---|---|
| ProxySession.SendData | proxy.py:28-31 | With encryption off the bytes are written unchanged. With it on they are written as the cipher's encryption at its current stream position, and the cipher advances by exactly those bytes. With it on but no cipher yet, the call crashes. Nothing else in the session changes. |
| ProxySession.StartEncryption | proxy.py:41-44 | Sets the flag and installs the encrypted parser; buffer and ciphers are untouched. |
| ProxySession.ParseEncrypted | proxy.py:33-39 | Received bytes are decrypted. The plaintext goes unchanged to the opposite object's sendData before any parsing. The new leftover is the parser's remainder of old leftover ++ plaintext. The processor sees the parsed packets marked encrypted. Without a decipher the call crashes. |
| ProxySession.ParsePlain | proxy.py:169-178 | While the server connection is missing, client bytes are only appended to leftover and there are no effects. Otherwise the first effect is the processor call on the parse of leftover ++ bytes, and the new leftover is that parse's remainder. Without a 252 in the batch (always, on the client side) the flags stay as they were. The server object's parser (proxy.py:66-70) is the same without the buffering branch. The dispatch of the parsed packets is stated by PlainChunkDispatch, ChunkOfPingsResent, ServerChunkKeyRequest and ClientChunkHandshake. |
| ProxySession.HandleServerPacket | proxy.py:71-86 | One server packet never turns encryption off, keeps the invariant, changes the flags only when it is a 252, and leaves both buffers alone. |
| ProxySession.HandleClientPacket | proxy.py:179-190 | One client packet never changes either flag, the stored reply or either buffer, and keeps the invariant. |
| ProxySession.HandlePackets | proxy.py:179-190 | The packet loop of either object (the server's is proxy.py:71-86), keeps the invariant, only moves the session forward, leaves both buffers alone, and changes no flag unless the batch holds a server 252. The order is stated by HandlePacketsInOrder. |
| ProxySession.DataReceived | proxy.py:22-24 | Dispatching on the installed parser keeps the invariant and only moves the session forward. |
| ProxySession.Step | proxy.py:58-60 | Every reactor callback, including the server connection feeding the client parser an empty chunk, keeps the invariant (parsers match flags, flags equal, nothing but the client buffer before connection) and never switches encryption off. Client bytes go to the client object's `dataReceived`, server bytes to the server object's, and the connection to the client object's with an empty chunk. |
| ProxySession.SubstituteRequest | proxy.py:200-209 | The request sent to the client carries the proxy's exported public key and its length, token_length 4, and a verify token drawn fresh from the random source. Its untouched fields stay as the server sent them. |
| ProxySession.RewriteHandshake | proxy.py:113-122 | The forwarded handshake has server_host/server_port replaced by the configured host/port and every other field unchanged. |
| ProxySession.KeyResponseFor | proxy.py:101-111 | The response to the server carries the stored encrypted secret and token, each with its own length. |
| ProxySession.OnClientKeyResponse | proxy.py:180-182 | With no stored reply (no 253 seen yet) the attribute lookup fails and the process crashes. |
| ProxySession.OnServerConfirm | proxy.py:76-80 | After the server's confirmation both objects have encryption on. |
| ProxySession.OnServerKeyRequest | proxy.py:94-99 | Draw `draws` of the random source is the AES key. It keys both the server-side cipher and decipher. It is stored encrypted under the server's public key, as is the server's token. Draw `draws + 1` is the 4-byte token of the substitute request. That request is the only thing sent, to the client, while the client link is unencrypted. Exactly two draws are made. |
| ProxyProperties.InitialSession | proxy.py:150-154 | Both objects start with encryption off, the plaintext parser and an empty buffer, and the invariant holds. |
| ProxyProperties.FeedPreservesInv | proxy.py:41-43 | Over any run of chunks the invariant holds and encryption, once on, stays on. |
| ProxyProperties.OnlyConfirmActivates | proxy.py:76-80 | Encryption is switched on only by a server batch containing 252; client batches and other server batches leave both flags unchanged. |
| ProxyProperties.BufferedUntilConnected | proxy.py:169-175 | Any number of client chunks before the server connects only extend the client buffer by their concatenation. Nothing is parsed, processed or sent. |
| ProxyProperties.ConnectParsesBuffer | proxy.py:58-60 | When the server connects, the first thing processed is the parse of exactly the buffered bytes. |
| ProxyProperties.BufferThenConnect | proxy.py:169-176 | From a fresh session, chunks sent before connection are parsed after connection as one stream in their original order. |
| ProxyProperties.HandshakeRewritten | proxy.py:183-184 | A client handshake produces exactly one send to the server: the rebuilt handshake with the configured destination. The session is unchanged. |
| ProxyProperties.ServerKeyRequest | proxy.py:72-75 | Handling a server 253 sends the client only the substitute request (proxy key, fresh 4-byte token). Draw `draws` of the random source keys the server-side cipher and decipher. That key and the server's token are stored, each encrypted under the server's public key. Draw `draws + 1` is the token, and two draws are used. The client object and the flags are unchanged. |
| ProxyProperties.SubstituteHidesServerKey | proxy.py:204-209 | What the client is sent does not depend on the server's public key or verify token. |
| ProxyProperties.ClientKeyResponse | proxy.py:192-198 | A client 252 keys the client cipher and decipher with the RSA-decrypted secret. It sends the server the stored reply, with matching length fields. |
| ProxyProperties.ClientKeyResponseTooEarly | proxy.py:101-111 | A client 252 before any server 253 crashes the proxy. |
| ProxyProperties.ProxyLearnsClientKey | proxy.py:196-198 | When the client encrypts its key under the substituted public key, the proxy's client-side cipher is keyed with exactly the client's key. |
| ProxyProperties.ServerConfirm | proxy.py:76-80 | The server's confirmation forwards the whole buffer to the client in plaintext, then both objects start encryption in the same step. |
| ProxyProperties.PingDisconnectForwarded | proxy.py:81-84 | A 254 or 255 forwards the whole buffer through the opposite side's sendData (proxy.py:28-31), so it is encrypted once that link is. Before encryption it goes out unchanged, and nothing else changes. |
| ProxyProperties.DroppedIffUnhandled | proxy.py:185-190 | A packet changes nothing and sends nothing exactly when its id is not one that side handles: 2/252/254/255 for the client, 252/253/254/255 for the server. |
| ProxyProperties.UnhandledBatchDropped | proxy.py:85-86 | A batch of only unhandled ids changes nothing and sends nothing. |
| ProxyProperties.PingsResendWholeBuffer | proxy.py:186-188 | A batch of only 254/255 packets sends the whole buffer to the other side once per packet, unchanged, and changes nothing else. |
| ProxyProperties.HandlePacketsInOrder | proxy.py:179-190 | The packet loop (also proxy.py:71-86) runs the packets in order, each on the session the previous one left. A one-packet batch is that packet's handler. A batch a ++ b runs b after a, and if a crashes, the exception leaves the loop and no packet of b is handled. |
| ProxyProperties.PlainChunkDispatch | proxy.py:169-190 | For either plaintext parser (the server's is proxy.py:66-86), once the client object may parse: the processor sees the parse of leftover ++ chunk, the remainder becomes the leftover, and then the parsed packets are handled by the packet loop, in the order parsed, against the whole buffer leftover ++ chunk. |
| ProxyProperties.ChunkOfPingsResent | proxy.py:176-188 | For either object (the server's parser is proxy.py:66-84): on a connected, unencrypted session, a chunk whose parse holds only 254/255 packets is processed as the parse of leftover ++ chunk, and the remainder becomes the leftover. Then leftover ++ chunk (the whole buffer, not the new chunk alone) is sent to the other side once per packet. Nothing else is sent. |
| ProxyProperties.ServerChunkKeyRequest | proxy.py:66-75 | A server chunk that completes exactly one 253 is processed, then the client is sent only the substitute request. The server buffer keeps the parse remainder, the client object is unchanged and two draws are used. |
| ProxyProperties.ClientChunkHandshake | proxy.py:176-184 | A client chunk that completes exactly one handshake is processed, then the server is sent only the rewritten handshake. The client buffer keeps the parse remainder and nothing else changes. |
| ProxyProperties.RelayStep | proxy.py:33-37 | Once encrypted, a chunk from a real endpoint whose cipher is in step with the proxy's decipher is recovered as plaintext. It is sent to the other side under the other side's cipher, and both cipher objects stay in step. |
| ProxyProperties.RelayTransparent | proxy.py:33-35 | This needs encryption on, a stream cipher that undoes itself (`Inverts`), and each endpoint's cipher in the same state as the proxy's matching cipher. Then any sequence of plaintext chunks from one endpoint is read back exactly, chunk by chunk, by the other. Each endpoint write is taken to arrive as one `dataReceived` call; RelayResegmented drops that assumption. |
| ProxyProperties.SenderConcat | proxy.py:28-31 | Under a stream cipher, however an endpoint cuts its plaintext into writes, the ciphertext bytes are those of the whole plaintext. |
| ProxyProperties.ReadStream | proxy.py:33-34 | Under an inverting stream cipher, however the ciphertext of a byte string is cut into reads, a decipher in the sender's state reads back exactly that byte string. |
| ProxyProperties.FeedRelay | proxy.py:33-37 | However the ciphertext of a byte string reaches the proxy, cut into any number of reads, the proxy forwards to the other side exactly the ciphertext of that byte string under its cipher towards that side. It sends nothing back to the sender. |
| ProxyProperties.RelayResegmented | proxy.py:22-37 | Relay transparency over TCP. One endpoint writes plaintext chunks. Their ciphertext reaches the proxy cut into any reads, and the proxy's writes reach the other endpoint cut into any reads. The other endpoint, reading from the state of the proxy's cipher towards it, gets back exactly the bytes written, in order. This needs `Inverts` and `IsStream`. |
| ProxyWire.EncryptSplit | proxy.py:28-31 | Under a stream cipher, cutting a plaintext at k cuts its ciphertext at k. The first k ciphertext bytes encrypt the first k plaintext bytes, and the rest encrypts the rest from the advanced cipher object, which ends where one call on the whole would. |
| ProxyProperties.HandshakeKeysCiphers | proxy.py:76-80 | After the key request, the client's key response and the server's confirmation, both links are encrypted. Each link's cipher and decipher are fresh, at stream position 0. The server side is keyed with the random draw, the client side with the key the client sent. Only the confirmation buffer is sent, in plaintext. |
| ProxyProperties.StreamRoundTrip | proxy.py:28-34 | Encrypting a chunk stream and decrypting it from the same cipher state gives back the chunks. |
| AxisBox.Eq | twistedbot/axisbox.py:34-40 | `__eq__` holds exactly when the two boxes are the same value. |
| AxisBox.Width | twistedbot/axisbox.py:50-52 | The max x face lies width beyond the min x face, and the width is non-negative exactly when min_x <= max_x. |
| AxisBox.Depth | twistedbot/axisbox.py:54-56 | The max z face lies depth beyond the min z face, and the depth is non-negative exactly when min_z <= max_z. |
| AxisBox.Height | twistedbot/axisbox.py:58-60 | The max y face lies height beyond the min y face, and the height is non-negative exactly when min_y <= max_y. |
| AxisBox.PosX | twistedbot/axisbox.py:62-64 | posx is as far from min_x as from max_x, and it lies between them when min_x <= max_x. |
| AxisBox.PosZ | twistedbot/axisbox.py:70-72 | posz is as far from min_z as from max_z, and it lies between them when min_z <= max_z. |
| AxisBox.Copy | twistedbot/axisbox.py:42-48 | copy() is `__eq__`-equal to the original. |
| AxisBox.Offset | twistedbot/axisbox.py:159-165 | offset keeps width, height and depth and moves the min corner by the deltas; each delta defaults to 0. |
| AxisBox.Add | twistedbot/axisbox.py:23-24 | b + v keeps the size and moves the box by v. |
| AxisBox.Sub | twistedbot/axisbox.py:26-27 | b - v keeps the size and moves the box back by v. |
| AxisBox.Shift | twistedbot/axisbox.py:167-173 | Each given min becomes the new min of its axis, and a None axis keeps its min. Width, height and depth are kept. |
| AxisBox.ExtendTo | twistedbot/axisbox.py:175-181 | A positive delta raises the max and keeps the min. A negative one lowers the min and keeps the max. Each extent grows by the delta's absolute value, and the result contains the original. Each delta defaults to 0. |
| AxisBox.Expand | twistedbot/axisbox.py:183-189 | Each extent grows by twice its delta, the x/z centre is kept, and with non-negative deltas the result contains the original. Each delta defaults to 0. |
| AxisBox.Union | twistedbot/axisbox.py:191-197 | The union contains both boxes, and every box containing both contains the union. |
| AxisBox.Intersection | twistedbot/axisbox.py:199-205 | The intersection lies in both boxes, and every box in both lies in the intersection. |
| AxisBox.FromBlockCube | twistedbot/axisbox.py:112-114 | The block cube has width, height and depth 1 with its min corner at the block. |
| AxisBox.FromTwoPoints | twistedbot/axisbox.py:116-118 | p1 is the min corner, and the extents are p2 - p1, so p2 is the max corner. The box contains its min corner exactly when p1 is below p2 on every axis. |
| AxisBox.EqIsEquality | twistedbot/axisbox.py:34-40 | `__eq__` holds exactly when the two boxes are the same value. |
| AxisBox.AddSubRoundTrip | twistedbot/axisbox.py:23-27 | (b + v) - v == b and (b - v) + v == b. |
| AxisBox.OffsetCompose | twistedbot/axisbox.py:159-165 | Two offsets equal one offset by the summed deltas. |
| AxisBox.ShiftIdentity | twistedbot/axisbox.py:167-173 | shift() with all None, or with the box's own mins, returns an equal box. |
| AxisBox.ShiftIsOffset | twistedbot/axisbox.py:167-173 | A full shift is the offset from the old min corner to the new one. |
| AxisBox.ExtendToZero | twistedbot/axisbox.py:175-181 | extend_to(0, 0, 0) returns an equal box. |
| AxisBox.ExpandInverse | twistedbot/axisbox.py:183-189 | Expanding by d and then by -d restores the box. |
| AxisBox.UnionCommutative | twistedbot/axisbox.py:191-197 | a.union(b) equals b.union(a). |
| AxisBox.UnionAssociative | twistedbot/axisbox.py:191-197 | union is associative. |
| AxisBox.IntersectionCommutative | twistedbot/axisbox.py:199-205 | a.intersection(b) equals b.intersection(a). |
| AxisBox.SelfUnionIntersection | twistedbot/axisbox.py:191-205 | b.intersection(b) == b and b.union(b) == b. |
| AxisBox.ContainsAbsorbs | twistedbot/axisbox.py:191-205 | A contained box leaves the union as the outer box, and the intersection as itself. |
| AxisBox.UnionOffset | twistedbot/axisbox.py:159-197 | Offsetting both boxes offsets their union. |
| AxisBox.BlockCubeFromCorners | twistedbot/axisbox.py:112-118 | The block cube is the box from its two opposite corners. |
| AxisBox.CopyIsIdentity | twistedbot/axisbox.py:42-48 | copy() is the same value as the original. |
| Materials.LastIndex | twistedbot/materials.py:37-43 | A class name resolves to its last definition: that definition has the name and no later one does. |
| Materials.ClassBindings | twistedbot/materials.py:3-47 | Each class name is bound to its class statement; MaterialPortal is bound to the second one. |
| Materials.New | twistedbot/materials.py:9-11 | An instance records its class and the translucent / requires_no_tool arguments, defaulting to false / true. |
| Materials.IsSolid | twistedbot/materials.py:4-47 | After inheritance and the rebinding of MaterialPortal, is_solid is true exactly for Material, MaterialPortal and MaterialWeb instances. |
| Materials.IsLiquid | twistedbot/materials.py:5-28 | is_liquid, inherited as false from Material, is true exactly for MaterialLiquid instances. |
| Materials.BlocksMovement | twistedbot/materials.py:6-47 | Every subclass sets blocks_movement false, so it is true exactly for plain Material instances. |
| Materials.IsOpaque | twistedbot/materials.py:13-18 | A translucent material is not opaque. Otherwise is_opaque equals blocks_movement. |
| Materials.OpaqueCharacterised | twistedbot/materials.py:13-18 | Opaque exactly when not translucent and blocking movement. |
| Materials.PortalShadowed | twistedbot/materials.py:37-43 | The first MaterialPortal statement is shadowed; the bound one assigns no is_solid. |
| Materials.PortalIsSolidButPassable | twistedbot/materials.py:78 | portal is solid, does not block movement, and is not opaque. |
| Materials.NonSolidClasses | twistedbot/materials.py:21-34 | Transparent, liquid and logic materials are not solid, do not block movement and are never opaque. |
| Materials.OnlyLiquidIsLiquid | twistedbot/materials.py:26-29 | is_liquid holds exactly for MaterialLiquid instances. |
| Materials.ToolRequirement | twistedbot/materials.py:50-81 | Among the named materials, exactly rock, iron, anvil, snow, crafted_snow and web require a tool. |
| Materials.TranslucentNotOpaque | twistedbot/materials.py:50-81 | Exactly leaves, glass, tnt, ice, snow and cactus are translucent, and those are not opaque. |
| Materials.OpaqueTable | twistedbot/materials.py:50-81 | The named materials that are not opaque are exactly the translucent ones plus air, water, lava, fire, circuits, portal and web. |

## Left out

- Twisted plumbing: the reactor, transports, `connectTCP`/`listenTCP` and the factory logging callbacks (proxy.py:125-146, 160-167, 226-227). Bytes written are recorded as `Sent` effects instead.
- Connection loss (`connectionLost`, proxy.py:62-64, 164-167) closes the peer transport. This is I/O, and no session state depends on it.
- The command line, the dynamic processor import and log-file setup (proxy.py:230-291). `processor.process_packets` appears only as a `Processed` effect. Its internals are not part of this model.
- The packet codec (`parse_packets`, `make_packet`, `packets`) and the `encryption` module are not part of this model. They are parameters, so no byte-conservation or fragmentation claim is made about the reassembler.
- The codec's typing is assumed: a packet with id 2, 252 or 253 always carries that packet's fields. Attribute errors from mismatched fields are therefore not modelled.
- The collaborators are total functions in the model, so none of them can fail. In the source, `parse_packets`, `load_pubkey`, `encryption.encrypt` (proxy.py:97-99), RSA `decrypt` (proxy.py:196) and `processor.process_packets` (proxy.py:38, 69, 177) can raise. Such an exception reaches `exit_on_error` just like the attribute errors the model turns into `Crashed`. The `Running` conclusions of the handshake and relay lemmas therefore assume collaborators that do not raise.
- `send_handshake` and `send_encryption_key_request` modify the parsed packet object in place (proxy.py:119-120, 205-208) after the processor has been given it. The model's `Processed` effect keeps the packet as parsed.
- The plaintext parsers call `process_packets` without `encrypted` (proxy.py:69-70, 177-178). `Processed(…, false, …)` assumes that argument defaults to false.
- `dataReceived`'s catch-all `exit_on_error` (proxy.py:22-26) is modelled only as the `Crashed` outcome. It is not modelled as process termination.
- Only one proxied connection is modelled. `ProxyClientFactory.buildProtocol` overwrites `self.protocol` for every accepted client (proxy.py:222-224), and the server side looks its peer up through that attribute. So with two clients, the first server connection talks to the latest client. That cross-talk is not modelled.
- Random bytes are the n-th draw of a random-source parameter. The default length of `get_random_bytes()` is left to that parameter.
- AABB: `collides`, `collision_distance`, `sweep_collision` and `calculate_axis_offset` depend on epsilon comparisons and float division (twistedbot/axisbox.py:133-157, 233-277). The `grid_*` properties, `cube_completent`, `grid_box` and `grid_area` depend on `utils.grid_shift` or `floor` (74-96, 207-231). `from_player_coords`/`from_block_coords` depend on `config` constants, and `from_block_coords` calls `from_player_coords` with the wrong number of arguments (98-110). `from_point_and_dimensions`, `bottom_center`, `grid_bottom_center` and `__repr__` are presentation or Vector helpers. None of these is modelled.
- AABB arithmetic is on ideal reals, not IEEE doubles. Python evaluates `__eq__` on floats, where the `(b + v) - v == b` round trip can fail by rounding.
- ProxyProperties.RelayTransparent: each endpoint write is taken to arrive at the proxy as one `dataReceived` call, and each proxy write to reach the other endpoint as one read. TCP does not keep write boundaries. ProxyProperties.RelayResegmented states the byte-stream version for any re-segmentation, under the extra `IsStream` premise.
- AABB: `posy` is `min_y` itself, so the model reads `minY` directly.
- Materials: the class attribute `is_translucent = False` is always overwritten by `__init__`, so only the instance value is kept.

=== FILE: axisbox.dfy ===
/** Axis-aligned bounding boxes of twistedbot/axisbox.py, over ideal reals.
    Only the operations that use exact addition, subtraction and comparison
    are modelled; the epsilon-tolerant collision code is not. */
module AxisBox {
  import opened Wrappers

  /** A 3-component vector; the source only reads `.x`, `.y` and `.z`. */
  datatype Vec = Vec(x: real, y: real, z: real)

  /** `AABB(min_x, min_y, min_z, max_x, max_y, max_z)`. The source does not
      require min <= max, and neither does this model. */
  datatype AABB = AABB(minX: real, minY: real, minZ: real, maxX: real, maxY: real, maxZ: real)

  /** `width`, `height` and `depth`: how far the max face lies beyond the
      min face on each axis, non-negative exactly when that axis is not
      inverted. */
  function Width(b: AABB): (r: real)
    ensures b.maxX == b.minX + r
    ensures r >= 0.0 <==> b.minX <= b.maxX
  {
    b.maxX - b.minX
  }

  function Height(b: AABB): (r: real)
    ensures b.maxY == b.minY + r
    ensures r >= 0.0 <==> b.minY <= b.maxY
  {
    b.maxY - b.minY
  }

  function Depth(b: AABB): (r: real)
    ensures b.maxZ == b.minZ + r
    ensures r >= 0.0 <==> b.minZ <= b.maxZ
  {
    b.maxZ - b.minZ
  }

  /** Centre of the box on the x and z axes (`posx`, `posz`): the point as
      far from the min face as from the max face, and between them when the
      axis is not inverted. */
  function PosX(b: AABB): (r: real)
    ensures r - b.minX == b.maxX - r
    ensures b.minX <= b.maxX ==> b.minX <= r <= b.maxX
  {
    (b.minX + b.maxX) / 2.0
  }

  function PosZ(b: AABB): (r: real)
    ensures r - b.minZ == b.maxZ - r
    ensures b.minZ <= b.maxZ ==> b.minZ <= r <= b.maxZ
  {
    (b.minZ + b.maxZ) / 2.0
  }

  /** `__eq__`: all six coordinates agree, so it is value equality. */
  function Eq(a: AABB, b: AABB): (r: bool)
    ensures r <==> a == b
  {
    && a.minX == b.minX && a.minY == b.minY && a.minZ == b.minZ
    && a.maxX == b.maxX && a.maxY == b.maxY && a.maxZ == b.maxZ
  }

  /** Coordinate-wise containment: `inner` lies inside `outer`. */
  predicate Contains(outer: AABB, inner: AABB) {
    && outer.minX <= inner.minX && outer.minY <= inner.minY && outer.minZ <= inner.minZ
    && inner.maxX <= outer.maxX && inner.maxY <= outer.maxY && inner.maxZ <= outer.maxZ
  }

  /** Boxes of equal extent on every axis. */
  predicate SameSize(a: AABB, b: AABB) {
    Width(a) == Width(b) && Height(a) == Height(b) && Depth(a) == Depth(b)
  }

  function Copy(b: AABB): (r: AABB)
    ensures Eq(r, b)
  {
    AABB(b.minX, b.minY, b.minZ, b.maxX, b.maxY, b.maxZ)
  }

  /** `offset(dx, dy, dz)`: translate the box. */
  function Offset(b: AABB, dx: real := 0.0, dy: real := 0.0, dz: real := 0.0): (r: AABB)
    ensures SameSize(r, b)
    ensures r.minX == b.minX + dx && r.minY == b.minY + dy && r.minZ == b.minZ + dz
  {
    AABB(b.minX + dx, b.minY + dy, b.minZ + dz, b.maxX + dx, b.maxY + dy, b.maxZ + dz)
  }

  /** `b + v`. */
  function Add(b: AABB, v: Vec): (r: AABB)
    ensures SameSize(r, b)
    ensures r.minX - b.minX == v.x && r.minY - b.minY == v.y && r.minZ - b.minZ == v.z
  {
    Offset(b, v.x, v.y, v.z)
  }

  /** `b - v`. */
  function Sub(b: AABB, v: Vec): (r: AABB)
    ensures SameSize(r, b)
    ensures b.minX - r.minX == v.x && b.minY - r.minY == v.y && b.minZ - r.minZ == v.z
  {
    Offset(b, -v.x, -v.y, -v.z)
  }

  /** `shift(min_x, min_y, min_z)`: move the min corner of each given axis to
      the given value, keeping that axis' extent; an axis given as `None` is
      left alone. */
  function Shift(b: AABB, minX: Option<real>, minY: Option<real>, minZ: Option<real>): (r: AABB)
    ensures SameSize(r, b)
    ensures r.minX == minX.GetOr(b.minX) && r.minY == minY.GetOr(b.minY) && r.minZ == minZ.GetOr(b.minZ)
  {
    AABB(if minX.Some? then minX.value else b.minX,
         if minY.Some? then minY.value else b.minY,
         if minZ.Some? then minZ.value else b.minZ,
         if minX.Some? then b.maxX - b.minX + minX.value else b.maxX,
         if minY.Some? then b.maxY - b.minY + minY.value else b.maxY,
         if minZ.Some? then b.maxZ - b.minZ + minZ.value else b.maxZ)
  }

  /** Absolute value of a real, for the growth of `extend_to`. */
  function Abs(d: real): real { if d < 0.0 then -d else d }

  /** `extend_to(dx, dy, dz)`: grow the box towards the sign of each delta;
      a positive delta moves the max face, a negative one the min face. */
  function ExtendTo(b: AABB, dx: real := 0.0, dy: real := 0.0, dz: real := 0.0): (r: AABB)
    ensures Width(r) == Width(b) + Abs(dx)
    ensures Height(r) == Height(b) + Abs(dy)
    ensures Depth(r) == Depth(b) + Abs(dz)
    ensures Contains(r, b)
    ensures dx >= 0.0 ==> r.minX == b.minX && r.maxX == b.maxX + dx
    ensures dx < 0.0 ==> r.minX == b.minX + dx && r.maxX == b.maxX
    ensures dy >= 0.0 ==> r.minY == b.minY && r.maxY == b.maxY + dy
    ensures dy < 0.0 ==> r.minY == b.minY + dy && r.maxY == b.maxY
    ensures dz >= 0.0 ==> r.minZ == b.minZ && r.maxZ == b.maxZ + dz
    ensures dz < 0.0 ==> r.minZ == b.minZ + dz && r.maxZ == b.maxZ
  {
    AABB(if dx == 0.0 || dx > 0.0 then b.minX else b.minX + dx,
         if dy == 0.0 || dy > 0.0 then b.minY else b.minY + dy,
         if dz == 0.0 || dz > 0.0 then b.minZ else b.minZ + dz,
         if dx == 0.0 || dx < 0.0 then b.maxX else b.maxX + dx,
         if dy == 0.0 || dy < 0.0 then b.maxY else b.maxY + dy,
         if dz == 0.0 || dz < 0.0 then b.maxZ else b.maxZ + dz)
  }

  /** `expand(dx, dy, dz)`: grow the box by the delta on both faces of each axis. */
  function Expand(b: AABB, dx: real := 0.0, dy: real := 0.0, dz: real := 0.0): (r: AABB)
    ensures Width(r) == Width(b) + 2.0 * dx
    ensures Height(r) == Height(b) + 2.0 * dy
    ensures Depth(r) == Depth(b) + 2.0 * dz
    ensures PosX(r) == PosX(b) && PosZ(r) == PosZ(b)
    ensures r.minY == b.minY - dy
    ensures dx >= 0.0 && dy >= 0.0 && dz >= 0.0 ==> Contains(r, b)
  {
    AABB(b.minX - dx, b.minY - dy, b.minZ - dz, b.maxX + dx, b.maxY + dy, b.maxZ + dz)
  }

  /** Smaller / larger of two reals, written as the source's conditionals. */
  function Lesser(a: real, b: real): real { if a < b then a else b }
  function Greater(a: real, b: real): real { if a > b then a else b }

  /** `union(bb)`: the smallest box holding both. */
  function Union(a: AABB, b: AABB): (r: AABB)
    ensures Contains(r, a) && Contains(r, b)
    ensures forall c :: Contains(c, a) && Contains(c, b) ==> Contains(c, r)
  {
    AABB(Lesser(a.minX, b.minX), Lesser(a.minY, b.minY), Lesser(a.minZ, b.minZ),
         Greater(a.maxX, b.maxX), Greater(a.maxY, b.maxY), Greater(a.maxZ, b.maxZ))
  }

  /** `intersection(bb)`: the largest box held by both (as a coordinate
      record; it is inverted when the boxes are disjoint). */
  function Intersection(a: AABB, b: AABB): (r: AABB)
    ensures Contains(a, r) && Contains(b, r)
    ensures forall c :: Contains(a, c) && Contains(b, c) ==> Contains(r, c)
  {
    AABB(Greater(a.minX, b.minX), Greater(a.minY, b.minY), Greater(a.minZ, b.minZ),
         Lesser(a.maxX, b.maxX), Lesser(a.maxY, b.maxY), Lesser(a.maxZ, b.maxZ))
  }

  /** `from_block_cube(x, y, z)`: the unit cube whose min corner is the block. */
  function FromBlockCube(x: real, y: real, z: real): (r: AABB)
    ensures Width(r) == 1.0 && Height(r) == 1.0 && Depth(r) == 1.0
    ensures r.minX == x && r.minY == y && r.minZ == z
  {
    AABB(x, y, z, x + 1.0, y + 1.0, z + 1.0)
  }

  /** `from_two_points(p1, p2)`: `p1` is the min corner and `p2` the max
      corner, taken as given (no reordering); the box holds its own min
      corner exactly when `p1` lies below `p2` on every axis. */
  function FromTwoPoints(p1: Vec, p2: Vec): (r: AABB)
    ensures r.minX == p1.x && r.minY == p1.y && r.minZ == p1.z
    ensures Width(r) == p2.x - p1.x && Height(r) == p2.y - p1.y && Depth(r) == p2.z - p1.z
    ensures (p1.x <= p2.x && p1.y <= p2.y && p1.z <= p2.z) <==> Contains(r, AABB(p1.x, p1.y, p1.z, p1.x, p1.y, p1.z))
  {
    AABB(p1.x, p1.y, p1.z, p2.x, p2.y, p2.z)
  }

  // ---------------------------------------------------------------------
  // Properties relating several operations

  /** `__eq__` is exactly structural equality of the six coordinates. */
  lemma EqIsEquality(a: AABB, b: AABB)
    ensures Eq(a, b) <==> a == b
  {
  }

  /** `(b + v) - v == b`, and the other order too. */
  lemma AddSubRoundTrip(b: AABB, v: Vec)
    ensures Eq(Sub(Add(b, v), v), b)
    ensures Eq(Add(Sub(b, v), v), b)
  {
  }

  /** Two offsets compose into one. */
  lemma OffsetCompose(b: AABB, dx1: real, dy1: real, dz1: real, dx2: real, dy2: real, dz2: real)
    ensures Offset(Offset(b, dx1, dy1, dz1), dx2, dy2, dz2) == Offset(b, dx1 + dx2, dy1 + dy2, dz1 + dz2)
  {
  }

  /** Shifting with every argument `None` gives an equal box; shifting to
      the box's own min corner does too. */
  lemma ShiftIdentity(b: AABB)
    ensures Eq(Shift(b, None, None, None), b)
    ensures Eq(Shift(b, Some(b.minX), Some(b.minY), Some(b.minZ)), b)
  {
  }

  /** A shift is an offset by the distance from the old min corner to the new one. */
  lemma ShiftIsOffset(b: AABB, x: real, y: real, z: real)
    ensures Shift(b, Some(x), Some(y), Some(z)) == Offset(b, x - b.minX, y - b.minY, z - b.minZ)
  {
  }

  /** `extend_to(0, 0, 0)` gives an equal box. */
  lemma ExtendToZero(b: AABB)
    ensures Eq(ExtendTo(b), b)
  {
  }

  /** Expanding and then expanding back by the opposite deltas restores the box. */
  lemma ExpandInverse(b: AABB, dx: real, dy: real, dz: real)
    ensures Eq(Expand(Expand(b, dx, dy, dz), -dx, -dy, -dz), b)
  {
  }

  lemma UnionCommutative(a: AABB, b: AABB)
    ensures Eq(Union(a, b), Union(b, a))
  {
  }

  lemma UnionAssociative(a: AABB, b: AABB, c: AABB)
    ensures Union(Union(a, b), c) == Union(a, Union(b, c))
  {
  }

  lemma IntersectionCommutative(a: AABB, b: AABB)
    ensures Eq(Intersection(a, b), Intersection(b, a))
  {
  }

  /** A box united or intersected with itself is itself. */
  lemma SelfUnionIntersection(b: AABB)
    ensures Eq(Intersection(b, b), b)
    ensures Eq(Union(b, b), b)
  {
  }

  /** A box already inside another adds nothing to their union and takes
      nothing from their intersection. */
  lemma ContainsAbsorbs(outer: AABB, inner: AABB)
    requires Contains(outer, inner)
    ensures Union(outer, inner) == outer
    ensures Intersection(outer, inner) == inner
  {
  }

  /** The unit block cube is the box spanned by its two opposite corners. */
  lemma BlockCubeFromCorners(x: real, y: real, z: real)
    ensures FromBlockCube(x, y, z) == FromTwoPoints(Vec(x, y, z), Vec(x + 1.0, y + 1.0, z + 1.0))
  {
  }

  /** Translating both boxes translates their union. */
  lemma UnionOffset(a: AABB, b: AABB, dx: real, dy: real, dz: real)
    ensures Union(Offset(a, dx, dy, dz), Offset(b, dx, dy, dz)) == Offset(Union(a, b), dx, dy, dz)
  {
  }

  /** `copy()` is the same value as the original. */
  lemma CopyIsIdentity(b: AABB)
    ensures Copy(b) == b
  {
  }
}

=== FILE: materials.dfy ===
/** The block material table of twistedbot/materials.py.

    Python binds a class name when its `class` statement runs, so a second
    `class MaterialPortal` rebinds the name and the first definition becomes
    unreachable. The model keeps the class statements as an ordered table
    and resolves a name to its LAST definition, which is how the shadowing
    shows up. */
module Materials {
  import opened Wrappers

  datatype ClassName =
    | MaterialBase        // `Material`
    | MaterialTransparent
    | MaterialLiquid
    | MaterialLogic
    | MaterialPortal
    | MaterialWeb

  /** One `class` statement: the class attributes it assigns itself; `None`
      means the attribute is inherited from `Material`. */
  datatype ClassDef = ClassDef(name: ClassName, isSolid: Option<bool>, isLiquid: Option<bool>,
                               blocksMovement: Option<bool>)

  /** The class statements in the order the module executes them. */
  const ClassDefs: seq<ClassDef> := [
    ClassDef(MaterialBase, Some(true), Some(false), Some(true)),
    ClassDef(MaterialTransparent, Some(false), None, Some(false)),
    ClassDef(MaterialLiquid, Some(false), Some(true), Some(false)),
    ClassDef(MaterialLogic, Some(false), None, Some(false)),
    ClassDef(MaterialPortal, Some(false), None, Some(false)),
    ClassDef(MaterialPortal, None, None, Some(false)),
    ClassDef(MaterialWeb, None, None, Some(false))
  ]

  /** Index of the definition `name` is bound to after `defs` have run: the
      last one that defines it, or -1 when none does. */
  function LastIndex(defs: seq<ClassDef>, name: ClassName): (k: int)
    ensures -1 <= k < |defs|
    ensures k >= 0 ==> defs[k].name == name
    ensures forall j :: k < j < |defs| ==> defs[j].name != name
  {
    if |defs| == 0 then -1
    else if defs[|defs| - 1].name == name then |defs| - 1
    else LastIndex(defs[..|defs| - 1], name)
  }

  /** The definition `name` is bound to in the module. */
  function ClassOf(name: ClassName): ClassDef {
    var k := LastIndex(ClassDefs, name);
    if k >= 0 then ClassDefs[k] else ClassDefs[0]
  }

  /** Which class statement each name is bound to. */
  lemma ClassBindings()
    ensures LastIndex(ClassDefs, MaterialBase) == 0
    ensures LastIndex(ClassDefs, MaterialTransparent) == 1
    ensures LastIndex(ClassDefs, MaterialLiquid) == 2
    ensures LastIndex(ClassDefs, MaterialLogic) == 3
    ensures LastIndex(ClassDefs, MaterialPortal) == 5
    ensures LastIndex(ClassDefs, MaterialWeb) == 6
  {
    var d := ClassDefs;
    assert d[6].name == MaterialWeb && d[5].name == MaterialPortal && d[4].name == MaterialPortal;
    assert d[3].name == MaterialLogic && d[2].name == MaterialLiquid;
    assert d[1].name == MaterialTransparent && d[0].name == MaterialBase;
  }

  /** A material instance: its class and the two instance attributes set by
      `Material.__init__` (`is_translucent`, `is_tool_not_required`). */
  datatype Material = Material(cls: ClassName, isTranslucent: bool, requiresNoTool: bool)

  /** `Material(translucent=False, requires_no_tool=True)` for a given class. */
  function New(cls: ClassName, translucent: bool := false, requiresNoTool: bool := true): (m: Material)
    ensures m.cls == cls && m.isTranslucent == translucent && m.requiresNoTool == requiresNoTool
  {
    Material(cls, translucent, requiresNoTool)
  }

  /** Class-attribute lookup: the class's own assignment, else `Material`'s. */
  function Lookup(own: Option<bool>, base: Option<bool>): bool {
    own.GetOr(base.GetOr(false))
  }

  /** `is_solid` as the instance sees it: `Material` and the classes that
      inherit its value (the rebound `MaterialPortal` and `MaterialWeb`)
      are solid; the others set it false. */
  function IsSolid(m: Material): (r: bool)
    ensures r <==> m.cls in {MaterialBase, MaterialPortal, MaterialWeb}
  {
    ClassBindings();
    Lookup(ClassOf(m.cls).isSolid, ClassOf(MaterialBase).isSolid)
  }

  /** `is_liquid`: set only by `MaterialLiquid`, false everywhere else. */
  function IsLiquid(m: Material): (r: bool)
    ensures r <==> m.cls == MaterialLiquid
  {
    ClassBindings();
    Lookup(ClassOf(m.cls).isLiquid, ClassOf(MaterialBase).isLiquid)
  }

  /** `blocks_movement`: every subclass sets it false, so only plain
      `Material` instances block movement. */
  function BlocksMovement(m: Material): (r: bool)
    ensures r <==> m.cls == MaterialBase
  {
    ClassBindings();
    Lookup(ClassOf(m.cls).blocksMovement, ClassOf(MaterialBase).blocksMovement)
  }

  /** `is_opaque`: a translucent material is never opaque; otherwise a
      material is opaque exactly when it blocks movement. */
  function IsOpaque(m: Material): (r: bool)
    ensures m.isTranslucent ==> !r
    ensures !m.isTranslucent ==> (r <==> BlocksMovement(m))
    ensures r ==> BlocksMovement(m)
  {
    if m.isTranslucent then false else BlocksMovement(m)
  }

  // The module-level material instances.
  const air := New(MaterialTransparent)
  const grass := New(MaterialBase)
  const ground := New(MaterialBase)
  const wood := New(MaterialBase)
  const rock := New(MaterialBase, requiresNoTool := false)
  const iron := New(MaterialBase, requiresNoTool := false)
  const anvil := New(MaterialBase, requiresNoTool := false)
  const water := New(MaterialLiquid)
  const lava := New(MaterialLiquid)
  const leaves := New(MaterialBase, translucent := true)
  const plants := New(MaterialBase)
  const vine := New(MaterialBase)
  const sponge := New(MaterialBase)
  const cloth := New(MaterialBase)
  const fire := New(MaterialTransparent)
  const sand := New(MaterialBase)
  const circuits := New(MaterialLogic)
  const glass := New(MaterialBase, translucent := true)
  const redstoneLight := New(MaterialBase)
  const tnt := New(MaterialBase, translucent := true)
  const coral := New(MaterialBase)
  const ice := New(MaterialBase, translucent := true)
  const snow := New(MaterialBase, translucent := true, requiresNoTool := false)
  const craftedSnow := New(MaterialBase, requiresNoTool := false)
  const cactus := New(MaterialBase, translucent := true)
  const clay := New(MaterialBase)
  const pumpkin := New(MaterialBase)
  const dragonEgg := New(MaterialBase)
  const portal := New(MaterialPortal)
  const cake := New(MaterialBase)
  const web := New(MaterialWeb, requiresNoTool := false)
  const piston := New(MaterialBase)

  /** Every named material, with its module-level name. */
  const Named: seq<(string, Material)> := [
    ("air", air), ("grass", grass), ("ground", ground), ("wood", wood), ("rock", rock),
    ("iron", iron), ("anvil", anvil), ("water", water), ("lava", lava), ("leaves", leaves),
    ("plants", plants), ("vine", vine), ("sponge", sponge), ("cloth", cloth), ("fire", fire),
    ("sand", sand), ("circuits", circuits), ("glass", glass), ("redstone_light", redstoneLight),
    ("tnt", tnt), ("coral", coral), ("ice", ice), ("snow", snow), ("crafted_snow", craftedSnow),
    ("cactus", cactus), ("clay", clay), ("pumpkin", pumpkin), ("dragon_egg", dragonEgg),
    ("portal", portal), ("cake", cake), ("web", web), ("piston", piston)
  ]

  const ToolMaterials: set<string> := {"rock", "iron", "anvil", "snow", "crafted_snow", "web"}
  const TranslucentMaterials: set<string> := {"leaves", "glass", "tnt", "ice", "snow", "cactus"}

  // ---------------------------------------------------------------------
  // Properties of the table

  /** The first `MaterialPortal` statement is shadowed by the second. */
  lemma PortalShadowed()
    ensures ClassOf(MaterialPortal) == ClassDefs[5] && ClassOf(MaterialPortal) != ClassDefs[4]
    ensures ClassOf(MaterialPortal).isSolid.None?
  {
    ClassBindings();
  }

  /** So `portal` stays solid but does not block movement. */
  lemma PortalIsSolidButPassable()
    ensures IsSolid(portal) && !BlocksMovement(portal) && !IsOpaque(portal)
  {
    ClassBindings();
  }

  /** Transparent, liquid and logic materials are not solid, do not block
      movement, and are therefore never opaque, whatever their instance flags. */
  lemma NonSolidClasses(m: Material)
    requires m.cls in {MaterialTransparent, MaterialLiquid, MaterialLogic}
    ensures !IsSolid(m) && !BlocksMovement(m) && !IsOpaque(m)
  {
    ClassBindings();
  }

  /** Only `MaterialLiquid` sets `is_liquid`. */
  lemma OnlyLiquidIsLiquid(m: Material)
    ensures IsLiquid(m) <==> m.cls == MaterialLiquid
  {
    ClassBindings();
  }

  /** Opacity is blocking movement without translucency. */
  lemma OpaqueCharacterised(m: Material)
    ensures IsOpaque(m) <==> !m.isTranslucent && BlocksMovement(m)
  {
  }

  /** Exactly rock, iron, anvil, snow, crafted_snow and web require a tool. */
  lemma ToolRequirement()
    ensures forall i :: 0 <= i < |Named| ==> (!Named[i].1.requiresNoTool <==> Named[i].0 in ToolMaterials)
  {
  }

  /** Exactly leaves, glass, tnt, ice, snow and cactus are translucent, and
      those are not opaque. */
  lemma TranslucentNotOpaque()
    ensures forall i :: 0 <= i < |Named| ==> (Named[i].1.isTranslucent <==> Named[i].0 in TranslucentMaterials)
    ensures forall i :: 0 <= i < |Named| && Named[i].0 in TranslucentMaterials ==> !IsOpaque(Named[i].1)
  {
  }

  /** The named materials that are not opaque are exactly the translucent
      ones plus those of the non-blocking classes. */
  lemma OpaqueTable()
    ensures forall i :: 0 <= i < |Named| ==>
      (!IsOpaque(Named[i].1) <==>
        Named[i].0 in TranslucentMaterials || Named[i].0 in {"air", "water", "lava", "fire", "circuits", "portal", "web"})
  {
    ClassBindings();
  }
}

=== FILE: proxy_properties.dfy ===
/** Properties of the proxy model across calls: buffering before the server
    connection, the handshake steps, dispatch, and relay transparency once
    both links are encrypted. */
module ProxyProperties {
  import opened Wrappers
  import opened ProxyWire
  import opened ProxySession

  // ---------------------------------------------------------------------
  // Successive calls

  /** All chunks, in order, as one byte string. */
  function Concat(chunks: seq<Bytes>): (r: Bytes)
    decreases |chunks|
  {
    if |chunks| == 0 then [] else chunks[0] + Concat(chunks[1..])
  }

  /** Successive `dataReceived` calls on the object facing `side`; the
      first crash ends the run. */
  function Feed(env: Env, s: Session, side: Side, chunks: seq<Bytes>): (r: Outcome)
    decreases |chunks|
  {
    if |chunks| == 0 then Running(s, [])
    else
      match DataReceived(env, s, side, chunks[0])
      case Crashed(e) => Crashed(e)
      case Running(s1, e) => Prefix(e, Feed(env, s1, side, chunks[1..]))
  }

  /** The bytes written to the transport facing `side`, in order. */
  function SentTo(effects: seq<Effect>, side: Side): seq<Bytes>
    decreases |effects|
  {
    if |effects| == 0 then []
    else (if effects[0].Sent? && effects[0].to == side then [effects[0].bytes] else [])
         + SentTo(effects[1..], side)
  }

  lemma {:induction false} SentToAppend(a: seq<Effect>, b: seq<Effect>, side: Side)
    ensures SentTo(a + b, side) == SentTo(a, side) + SentTo(b, side)
    decreases |a|
  {
    if |a| == 0 {
      assert a + b == b;
    } else {
      assert (a + b)[1..] == a[1..] + b;
      SentToAppend(a[1..], b, side);
    }
  }

  // ---------------------------------------------------------------------
  // The initial session and the invariant

  /** Both objects start with encryption off and the plaintext parser, and
      the initial session satisfies the invariant. */
  lemma InitialSession()
    ensures Inv(Initial)
    ensures !Initial.client.encryptionOn && Initial.client.parser == PlainParser
    ensures !Initial.server.encryptionOn && Initial.server.parser == PlainParser
    ensures Initial.client.leftover == [] && !Initial.serverConnected
  {
  }

  /** A run of client chunks keeps the invariant and only moves forward. */
  lemma {:induction false} FeedPreservesInv(env: Env, s: Session, side: Side, chunks: seq<Bytes>)
    requires Inv(s)
    requires side == ServerSide ==> s.serverConnected
    ensures Feed(env, s, side, chunks).Running? ==>
      Inv(Feed(env, s, side, chunks).session) && Evolves(s, Feed(env, s, side, chunks).session)
    decreases |chunks|
  {
    if |chunks| > 0 {
      var o := DataReceived(env, s, side, chunks[0]);
      if o.Running? {
        FeedPreservesInv(env, o.session, side, chunks[1..]);
      }
    }
  }

  /** Encryption is switched on only by the server's 252 confirmation: a
      server batch without one, and any client batch, leave both flags as
      they were. */
  lemma OnlyConfirmActivates(env: Env, s: Session, side: Side, bytes: Bytes)
    requires Inv(s) && !LinkOf(s, side).encryptionOn
    requires side == ServerSide ==> s.serverConnected
    requires side == ServerSide ==> NoConfirm(env.codec.parse(s.server.leftover + bytes).0)
    ensures DataReceived(env, s, side, bytes).Running? ==> SameFlags(s, DataReceived(env, s, side, bytes).session)
  {
  }

  // ---------------------------------------------------------------------
  // Buffering before the server connection exists

  /** While the server connection does not exist, client chunks are only
      appended to the client buffer: nothing is parsed, processed or sent. */
  lemma {:induction false} BufferedUntilConnected(env: Env, s: Session, chunks: seq<Bytes>)
    requires Inv(s) && !s.serverConnected
    ensures Feed(env, s, ClientSide, chunks) ==
            Running(s.(client := s.client.(leftover := s.client.leftover + Concat(chunks))), [])
    decreases |chunks|
  {
    if |chunks| == 0 {
      assert s.client.leftover + Concat(chunks) == s.client.leftover;
      assert s.(client := s.client.(leftover := s.client.leftover)) == s;
    } else {
      var s1 := s.(client := s.client.(leftover := s.client.leftover + chunks[0]));
      assert DataReceived(env, s, ClientSide, chunks[0]) == Running(s1, []);
      BufferedUntilConnected(env, s1, chunks[1..]);
      assert s1.client.leftover + Concat(chunks[1..]) == s.client.leftover + Concat(chunks);
    }
  }

  /** Making the server connection parses exactly the buffered bytes. */
  lemma ConnectParsesBuffer(env: Env, s: Session)
    requires Inv(s) && !s.serverConnected
    ensures var r := Step(env, s, ServerConnected);
            && |r.effects| > 0
            && r.effects[0] == Processed(ClientSide, env.codec.parse(s.client.leftover).0, false,
                                         env.codec.parse(s.client.leftover).1)
  {
    assert s.client.leftover + [] == s.client.leftover;
  }

  /** Chunks sent by the client before the server connection is made are
      parsed, once it is made, as one stream in their original order. */
  lemma BufferThenConnect(env: Env, chunks: seq<Bytes>)
    ensures Feed(env, Initial, ClientSide, chunks).Running?
    ensures var s := Feed(env, Initial, ClientSide, chunks).session;
            && Feed(env, Initial, ClientSide, chunks).effects == []
            && !s.serverConnected
            && |Step(env, s, ServerConnected).effects| > 0
            && Step(env, s, ServerConnected).effects[0] ==
               Processed(ClientSide, env.codec.parse(Concat(chunks)).0, false, env.codec.parse(Concat(chunks)).1)
  {
    InitialSession();
    BufferedUntilConnected(env, Initial, chunks);
    var s := Feed(env, Initial, ClientSide, chunks).session;
    assert s.client.leftover == Concat(chunks);
    ConnectParsesBuffer(env, s);
  }

  // ---------------------------------------------------------------------
  // The handshake steps

  /** STEP 1: a client handshake reaches the server with its destination
      rewritten to the configured server and every other field as sent. */
  lemma HandshakeRewritten(env: Env, s: Session, data: Bytes, h: HandshakeFields)
    requires !s.server.encryptionOn
    ensures var h' := RewriteHandshake(env, h);
            && HandleClientPacket(env, s, data, Handshake(h)) == Running(s, [Sent(ServerSide, env.codec.build(Handshake(h')))])
            && h'.serverHost == env.config.host && h'.serverPort == env.config.port && h'.rest == h.rest
  {
  }

  /** STEP 2: the server's key request is answered towards the client with a
      substitute carrying the proxy's public key and a fresh 4-byte token;
      the server-side cipher is keyed with a fresh key, and that same key,
      with the server's token, is stored encrypted under the server's
      public key. The key is draw `draws` of the random source and the
      token draw `draws + 1`. */
  lemma ServerKeyRequest(env: Env, s: Session, data: Bytes, c: KeyRequestFields)
    requires !s.client.encryptionOn
    ensures var r := HandleServerPacket(env, s, data, KeyRequest(c));
            var sub := SubstituteRequest(env, c, s.draws + 1);
            && r.Running?
            && r.effects == [Sent(ClientSide, env.codec.build(KeyRequest(sub)))]
            && sub.publicKey == env.crypto.exportPublicKey(env.config.rsaKey) && sub.tokenLength == 4
            && sub.verifyToken == env.crypto.randomBytes(s.draws + 1, Some(4))
            && r.session.draws == s.draws + 2
            && var key := env.crypto.randomBytes(s.draws, None);
            && r.session.pending == Some(PendingReply(env.crypto.rsaEncrypt(key, c.publicKey),
                                                      env.crypto.rsaEncrypt(c.verifyToken, c.publicKey)))
            && r.session.server.cipher == Some(MakeAes(key, key))
            && r.session.server.decipher == Some(MakeAes(key, key))
            && r.session.client == s.client && SameFlags(s, r.session)
  {
  }

  /** What the client is sent depends on the server's request only through
      the fields the proxy does not replace: the server's public key and
      verify token never reach the client. */
  lemma SubstituteHidesServerKey(env: Env, c1: KeyRequestFields, c2: KeyRequestFields, draw: nat)
    requires c1.rest == c2.rest
    ensures SubstituteRequest(env, c1, draw) == SubstituteRequest(env, c2, draw)
  {
  }

  /** STEP 3: the client's key response keys the client-side ciphers with
      the secret decrypted under the proxy's key pair, and the server is sent
      the stored reply, with matching lengths. */
  lemma ClientKeyResponse(env: Env, s: Session, data: Bytes, c: KeyResponseFields)
    requires s.pending.Some? && !s.server.encryptionOn
    ensures var r := HandleClientPacket(env, s, data, KeyResponse(c));
            var key := env.crypto.rsaDecrypt(c.sharedSecret, env.config.rsaKey);
            var resp := KeyResponseFor(s.pending.value);
            && r.Running?
            && r.effects == [Sent(ServerSide, env.codec.build(KeyResponse(resp)))]
            && resp.sharedLength == |s.pending.value.encSharedSecret|
            && resp.tokenLength == |s.pending.value.encToken|
            && r.session.client.cipher == Some(MakeAes(key, key))
            && r.session.client.decipher == Some(MakeAes(key, key))
            && r.session.server == s.server && r.session.pending == s.pending
  {
  }

  /** Out of order, a client key response before the server's request
      finds no stored reply and ends the process. */
  lemma ClientKeyResponseTooEarly(env: Env, s: Session, data: Bytes, c: KeyResponseFields)
    requires s.pending.None?
    ensures HandleClientPacket(env, s, data, KeyResponse(c)).Crashed?
  {
  }

  /** The proxy learns the client's session key: when the client encrypts
      its key under the public key the substitute request carried, the
      client-side ciphers end up keyed with exactly that key. */
  lemma ProxyLearnsClientKey(env: Env, s: Session, data: Bytes, clientKey: Bytes, token: Bytes)
    requires RsaInverts(env.crypto, env.config.rsaKey)
    requires s.pending.Some? && !s.server.encryptionOn
    ensures var secret := env.crypto.rsaEncrypt(clientKey, env.crypto.exportPublicKey(env.config.rsaKey));
            var r := HandleClientPacket(env, s, data, KeyResponse(KeyResponseFields(|secret|, secret, |token|, token)));
            r.Running? && r.session.client.cipher == Some(MakeAes(clientKey, clientKey))
  {
  }

  /** STEP 4: the server's confirmation forwards the whole buffer to the
      client unencrypted, and then both objects start encryption together. */
  lemma ServerConfirm(env: Env, s: Session, data: Bytes, c: KeyResponseFields)
    requires !s.client.encryptionOn
    ensures HandleServerPacket(env, s, data, KeyResponse(c)) ==
            Running(s.(client := StartEncryption(s.client), server := StartEncryption(s.server)),
                    [Sent(ClientSide, data)])
  {
  }

  /** The whole handshake, steps 2 to 4: once the server's confirmation
      is handled, both links are encrypted, and each link's cipher and
      decipher are fresh cipher objects (empty stream position) keyed with
      that link's session key: the random draw on the server side, the key
      the client sent on the client side. These are the cipher states the
      relay lemmas start from. */
  lemma HandshakeKeysCiphers(env: Env, s: Session, d1: Bytes, d2: Bytes, d3: Bytes,
                             req: KeyRequestFields, resp: KeyResponseFields, conf: KeyResponseFields)
    requires Inv(s) && s.serverConnected && !s.client.encryptionOn
    ensures var r1 := HandleServerPacket(env, s, d1, KeyRequest(req));
            var r2 := HandleClientPacket(env, r1.session, d2, KeyResponse(resp));
            var r3 := HandleServerPacket(env, r2.session, d3, KeyResponse(conf));
            var ks := env.crypto.randomBytes(s.draws, None);
            var kc := env.crypto.rsaDecrypt(resp.sharedSecret, env.config.rsaKey);
            && r1.Running? && r2.Running? && r3.Running?
            && r3.effects == [Sent(ClientSide, d3)]
            && r3.session.client.encryptionOn && r3.session.server.encryptionOn
            && Inv(r3.session)
            && r3.session.server.cipher == Some(MakeAes(ks, ks)) && r3.session.server.decipher == Some(MakeAes(ks, ks))
            && r3.session.client.cipher == Some(MakeAes(kc, kc)) && r3.session.client.decipher == Some(MakeAes(kc, kc))
  {
    ServerKeyRequest(env, s, d1, req);
    var r1 := HandleServerPacket(env, s, d1, KeyRequest(req));
    ClientKeyResponse(env, r1.session, d2, resp);
    var r2 := HandleClientPacket(env, r1.session, d2, KeyResponse(resp));
    ServerConfirm(env, r2.session, d3, conf);
  }

  // ---------------------------------------------------------------------
  // Dispatch before encryption

  /** The packet ids the plaintext parser of each object acts upon. */
  function Handled(side: Side): set<byte> {
    if side == ClientSide then {2, 252, 254, 255} else {252, 253, 254, 255}
  }

  /** A ping or disconnect forwards the whole buffer through the other
      side's `sendData`, so it is encrypted once that side's link is; before
      encryption it goes out unchanged. */
  lemma PingDisconnectForwarded(env: Env, side: Side, s: Session, data: Bytes, p: Packet)
    requires Id(p) == 254 || Id(p) == 255
    ensures HandlePacket(env, side, s, data, p) == SendData(env, s, Opposite(side), data)
    ensures !LinkOf(s, Opposite(side)).encryptionOn ==>
      HandlePacket(env, side, s, data, p) == Running(s, [Sent(Opposite(side), data)])
  {
  }

  /** A packet is dropped, changing nothing and sending nothing, exactly when
      its id is not one the object handles. */
  lemma DroppedIffUnhandled(env: Env, side: Side, s: Session, data: Bytes, p: Packet)
    ensures HandlePacket(env, side, s, data, p) == Running(s, []) <==> Id(p) !in Handled(side)
  {
    if Id(p) in Handled(side) {
      var r := HandlePacket(env, side, s, data, p);
      if r.Running? {
        assert |r.effects| == 1;
      }
    }
  }

  /** Forwarding resends the whole buffer, not the matched packet: a batch
      of pings and disconnects sends the whole buffer to the other side
      once per packet. */
  lemma {:induction false} PingsResendWholeBuffer(env: Env, side: Side, s: Session, data: Bytes, pkts: seq<Packet>)
    requires forall i :: 0 <= i < |pkts| ==> Id(pkts[i]) in {254, 255}
    requires !LinkOf(s, Opposite(side)).encryptionOn
    ensures HandlePackets(env, side, s, data, pkts) ==
            Running(s, seq(|pkts|, _ => Sent(Opposite(side), data)))
    decreases |pkts|
  {
    if |pkts| > 0 {
      var sent := Sent(Opposite(side), data);
      PingDisconnectForwarded(env, side, s, data, pkts[0]);
      PingsResendWholeBuffer(env, side, s, data, pkts[1..]);
      assert [sent] + seq(|pkts| - 1, _ => sent) == seq(|pkts|, _ => sent);
    }
  }

  /** A batch of packets none of which is handled changes nothing and sends
      nothing. */
  lemma {:induction false} UnhandledBatchDropped(env: Env, side: Side, s: Session, data: Bytes, pkts: seq<Packet>)
    requires forall i :: 0 <= i < |pkts| ==> Id(pkts[i]) !in Handled(side)
    ensures HandlePackets(env, side, s, data, pkts) == Running(s, [])
    decreases |pkts|
  {
    if |pkts| > 0 {
      DroppedIffUnhandled(env, side, s, data, pkts[0]);
      UnhandledBatchDropped(env, side, s, data, pkts[1..]);
    }
  }

  // ---------------------------------------------------------------------
  // The packet loop and whole chunks

  /** The packet loop runs the packets in order, each on the session the
      previous one left: a one-packet batch is that packet's handler, and a
      batch `a + b` runs `b` after `a` unless `a` crashed, in which case no
      packet of `b` is handled. */
  lemma {:induction false} HandlePacketsInOrder(env: Env, side: Side, s: Session, data: Bytes,
                                                a: seq<Packet>, b: seq<Packet>, p: Packet)
    ensures HandlePackets(env, side, s, data, [p]) == HandlePacket(env, side, s, data, p)
    ensures var ra := HandlePackets(env, side, s, data, a);
            HandlePackets(env, side, s, data, a + b) ==
              if ra.Crashed? then ra else Prefix(ra.effects, HandlePackets(env, side, ra.session, data, b))
    decreases |a|
  {
    assert [p][1..] == [];
    if |a| == 0 {
      assert a + b == b;
      var rb := HandlePackets(env, side, s, data, b);
      assert [] + rb.effects == rb.effects;
    } else {
      assert (a + b)[0] == a[0] && (a + b)[1..] == a[1..] + b;
      var o := HandlePacket(env, side, s, data, a[0]);
      if o.Running? {
        HandlePacketsInOrder(env, side, o.session, data, a[1..], b, p);
        var rest := HandlePackets(env, side, o.session, data, a[1..]);
        if rest.Running? {
          var rb := HandlePackets(env, side, rest.session, data, b);
          assert o.effects + (rest.effects + rb.effects) == (o.effects + rest.effects) + rb.effects;
        }
      }
    }
  }

  /** A whole plaintext chunk, once the client-facing object may parse: the
      processor sees the parse of leftover ++ chunk, the remainder becomes
      the new leftover, and then the parsed packets are handled, in the
      order parsed, against the whole buffer leftover ++ chunk. */
  lemma PlainChunkDispatch(env: Env, s: Session, side: Side, bytes: Bytes)
    requires LinkOf(s, side).parser == PlainParser
    requires side == ServerSide || s.serverConnected
    ensures var data := LinkOf(s, side).leftover + bytes;
            var (pkts, rest) := env.codec.parse(data);
            DataReceived(env, s, side, bytes) ==
              Prefix([Processed(side, pkts, false, rest)],
                     HandlePackets(env, side, WithLink(s, side, LinkOf(s, side).(leftover := rest)), data, pkts))
  {
  }

  /** A whole plaintext chunk of pings and disconnects, on a connected
      session: the processor sees the parse of leftover ++ chunk, the
      remainder becomes the new leftover, and leftover ++ chunk (not just
      the chunk, and not just the packet) goes to the other side once per
      packet. */
  lemma ChunkOfPingsResent(env: Env, s: Session, side: Side, bytes: Bytes)
    requires Inv(s) && s.serverConnected && !LinkOf(s, side).encryptionOn
    requires forall i :: 0 <= i < |env.codec.parse(LinkOf(s, side).leftover + bytes).0| ==>
               Id(env.codec.parse(LinkOf(s, side).leftover + bytes).0[i]) in {254, 255}
    ensures var data := LinkOf(s, side).leftover + bytes;
            var (pkts, rest) := env.codec.parse(data);
            DataReceived(env, s, side, bytes) ==
              Running(WithLink(s, side, LinkOf(s, side).(leftover := rest)),
                      [Processed(side, pkts, false, rest)] + seq(|pkts|, _ => Sent(Opposite(side), data)))
  {
    var data := LinkOf(s, side).leftover + bytes;
    var (pkts, rest) := env.codec.parse(data);
    var s1 := WithLink(s, side, LinkOf(s, side).(leftover := rest));
    PingsResendWholeBuffer(env, side, s1, data, pkts);
  }

  /** STEP 2 from a whole server chunk: when the chunk completes exactly one
      key request, the processor sees it, then the client is sent the
      substitute request, and nothing else happens; the server buffer
      keeps the parse remainder. */
  lemma ServerChunkKeyRequest(env: Env, s: Session, bytes: Bytes, c: KeyRequestFields)
    requires Inv(s) && s.serverConnected && !s.server.encryptionOn
    requires env.codec.parse(s.server.leftover + bytes).0 == [KeyRequest(c)]
    ensures var rest := env.codec.parse(s.server.leftover + bytes).1;
            var r := DataReceived(env, s, ServerSide, bytes);
            && r.Running?
            && r.effects == [Processed(ServerSide, [KeyRequest(c)], false, rest),
                             Sent(ClientSide, env.codec.build(KeyRequest(SubstituteRequest(env, c, s.draws + 1))))]
            && r.session.server.leftover == rest && r.session.client == s.client
            && r.session.draws == s.draws + 2
  {
    var data := s.server.leftover + bytes;
    var rest := env.codec.parse(data).1;
    var s1 := s.(server := s.server.(leftover := rest));
    HandlePacketsInOrder(env, ServerSide, s1, data, [], [], KeyRequest(c));
    ServerKeyRequest(env, s1, data, c);
  }

  /** STEP 1 from a whole client chunk: when the chunk completes exactly one
      handshake, the processor sees it and the server is sent the rewritten
      handshake; the client buffer keeps the parse remainder. */
  lemma ClientChunkHandshake(env: Env, s: Session, bytes: Bytes, h: HandshakeFields)
    requires Inv(s) && s.serverConnected && !s.client.encryptionOn
    requires env.codec.parse(s.client.leftover + bytes).0 == [Handshake(h)]
    ensures var rest := env.codec.parse(s.client.leftover + bytes).1;
            DataReceived(env, s, ClientSide, bytes) ==
              Running(s.(client := s.client.(leftover := rest)),
                      [Processed(ClientSide, [Handshake(h)], false, rest),
                       Sent(ServerSide, env.codec.build(Handshake(RewriteHandshake(env, h))))])
  {
    var data := s.client.leftover + bytes;
    var rest := env.codec.parse(data).1;
    var s1 := s.(client := s.client.(leftover := rest));
    HandlePacketsInOrder(env, ClientSide, s1, data, [], [], Handshake(h));
    HandshakeRewritten(env, s1, data, h);
  }

  // ---------------------------------------------------------------------
  // Relay once encryption is on

  /** The ciphertext chunks an endpoint sends for plaintext chunks `xs`,
      starting from cipher state `c`. */
  function SenderStream(crypto: Crypto, c: CipherState, xs: seq<Bytes>): (r: seq<Bytes>)
    ensures |r| == |xs|
    decreases |xs|
  {
    if |xs| == 0 then []
    else [Encrypt(crypto, c, xs[0]).0] + SenderStream(crypto, Encrypt(crypto, c, xs[0]).1, xs[1..])
  }

  /** The plaintext chunks an endpoint reads from ciphertext chunks `ys`,
      starting from cipher state `c`. */
  function ReceiverStream(crypto: Crypto, c: CipherState, ys: seq<Bytes>): (r: seq<Bytes>)
    ensures |r| == |ys|
    decreases |ys|
  {
    if |ys| == 0 then []
    else [Decrypt(crypto, c, ys[0]).0] + ReceiverStream(crypto, Decrypt(crypto, c, ys[0]).1, ys[1..])
  }

  /** Under an inverting cipher, a receiver that starts in the sender's
      state reads back exactly what was sent, chunk by chunk. */
  lemma {:induction false} StreamRoundTrip(crypto: Crypto, c: CipherState, xs: seq<Bytes>)
    requires Inverts(crypto)
    ensures ReceiverStream(crypto, c, SenderStream(crypto, c, xs)) == xs
    decreases |xs|
  {
    if |xs| > 0 {
      EncryptDecrypt(crypto, c, xs[0]);
      var c' := Encrypt(crypto, c, xs[0]).1;
      StreamRoundTrip(crypto, c', xs[1..]);
      assert SenderStream(crypto, c, xs)[1..] == SenderStream(crypto, c', xs[1..]);
      assert [xs[0]] + xs[1..] == xs;
    }
  }

  /** One encrypted chunk: when the proxy's decipher for `side` is in the
      state of the real sender's cipher, the proxy recovers the plaintext and
      sends the other side that plaintext under the other side's cipher; both
      cipher objects stay in step with their real endpoints. */
  lemma RelayStep(env: Env, s: Session, side: Side, d: CipherState, c: CipherState, x: Bytes)
    requires Inverts(env.crypto) && Inv(s) && LinkOf(s, side).encryptionOn
    requires LinkOf(s, side).decipher == Some(d) && LinkOf(s, Opposite(side)).cipher == Some(c)
    ensures var r := DataReceived(env, s, side, Encrypt(env.crypto, d, x).0);
            && r.Running?
            && SentTo(r.effects, Opposite(side)) == [Encrypt(env.crypto, c, x).0]
            && SentTo(r.effects, side) == []
            && LinkOf(r.session, side).decipher == Some(Encrypt(env.crypto, d, x).1)
            && LinkOf(r.session, Opposite(side)).cipher == Some(Encrypt(env.crypto, c, x).1)
            && LinkOf(r.session, side).encryptionOn
            && Inv(r.session)
  {
    EncryptDecrypt(env.crypto, d, x);
    var r := DataReceived(env, s, side, Encrypt(env.crypto, d, x).0);
    var rest := env.codec.parse(LinkOf(s, side).leftover + x);
    var y := Encrypt(env.crypto, c, x).0;
    assert r.effects == [Sent(Opposite(side), y), Processed(side, rest.0, true, rest.1)];
    var e := r.effects;
    assert e[1..][1..] == [];
    assert SentTo(e[1..], Opposite(side)) == [] && SentTo(e[1..], side) == [];
    assert SentTo(e, Opposite(side)) == [y] + SentTo(e[1..], Opposite(side));
    assert SentTo(e, side) == [] + SentTo(e[1..], side);
  }

  /** Relay transparency: whatever plaintext chunks one real endpoint sends
      after activation, the other real endpoint, starting from the state of
      the proxy's cipher towards it, reads exactly those chunks. */
  lemma {:induction false} RelayTransparent(env: Env, s: Session, side: Side, d: CipherState, c: CipherState, xs: seq<Bytes>)
    requires Inverts(env.crypto) && Inv(s) && LinkOf(s, side).encryptionOn
    requires LinkOf(s, side).decipher == Some(d) && LinkOf(s, Opposite(side)).cipher == Some(c)
    ensures var r := Feed(env, s, side, SenderStream(env.crypto, d, xs));
            && r.Running?
            && SentTo(r.effects, Opposite(side)) == SenderStream(env.crypto, c, xs)
            && ReceiverStream(env.crypto, c, SentTo(r.effects, Opposite(side))) == xs
    decreases |xs|
  {
    StreamRoundTrip(env.crypto, c, xs);
    if |xs| > 0 {
      var ys := SenderStream(env.crypto, d, xs);
      var (y0, d') := Encrypt(env.crypto, d, xs[0]);
      var c' := Encrypt(env.crypto, c, xs[0]).1;
      RelayStep(env, s, side, d, c, xs[0]);
      var o := DataReceived(env, s, side, ys[0]);
      RelayTransparent(env, o.session, side, d', c', xs[1..]);
      assert ys[1..] == SenderStream(env.crypto, d', xs[1..]);
      var tail := Feed(env, o.session, side, ys[1..]);
      SentToAppend(o.effects, tail.effects, Opposite(side));
    }
  }

  // ---------------------------------------------------------------------
  // Relay over a byte stream

  lemma {:induction false} ConcatAppend(a: seq<Bytes>, b: seq<Bytes>)
    ensures Concat(a + b) == Concat(a) + Concat(b)
    decreases |a|
  {
    if |a| == 0 {
      assert a + b == b;
    } else {
      assert (a + b)[0] == a[0] && (a + b)[1..] == a[1..] + b;
      ConcatAppend(a[1..], b);
    }
  }

  /** How the first chunk of a cut ciphertext lines up with the plaintext:
      it is the encryption of the plaintext's first `|ys[0]|` bytes, and the
      other chunks carry the encryption of the rest. */
  lemma FirstChunk(crypto: Crypto, c: CipherState, x: Bytes, ys: seq<Bytes>)
    requires IsStream(crypto) && |ys| > 0 && Concat(ys) == Encrypt(crypto, c, x).0
    ensures |ys[0]| <= |x|
    ensures var (y1, c1) := Encrypt(crypto, c, x[..|ys[0]|]);
            ys[0] == y1 && Concat(ys[1..]) == Encrypt(crypto, c1, x[|ys[0]|..]).0
  {
    var whole := Encrypt(crypto, c, x).0;
    assert |whole| == |x|;
    assert whole == ys[0] + Concat(ys[1..]);
    var k := |ys[0]|;
    EncryptSplit(crypto, c, x, k);
    var (y1, c1) := Encrypt(crypto, c, x[..k]);
    assert ys[0] == whole[..k] == y1;
    assert Concat(ys[1..]) == whole[k..] == Encrypt(crypto, c1, x[k..]).0;
  }

  /** The sender side of the byte stream: however the endpoint cuts its
      plaintext into writes, the ciphertext bytes are those of the whole
      plaintext. */
  lemma {:induction false} SenderConcat(crypto: Crypto, c: CipherState, xs: seq<Bytes>)
    requires IsStream(crypto)
    ensures Concat(SenderStream(crypto, c, xs)) == Encrypt(crypto, c, Concat(xs)).0
    decreases |xs|
  {
    if |xs| == 0 {
      assert |Encrypt(crypto, c, []).0| == 0;
    } else {
      var c1 := Encrypt(crypto, c, xs[0]).1;
      SenderConcat(crypto, c1, xs[1..]);
      EncryptSplit(crypto, c, xs[0] + Concat(xs[1..]), |xs[0]|);
      assert (xs[0] + Concat(xs[1..]))[..|xs[0]|] == xs[0];
      assert (xs[0] + Concat(xs[1..]))[|xs[0]|..] == Concat(xs[1..]);
    }
  }

  /** The receiver side of the byte stream: however the ciphertext of `x` is
      cut into reads, an inverting stream cipher in the sender's state reads
      back exactly the bytes of `x`. */
  lemma {:induction false} ReadStream(crypto: Crypto, c: CipherState, x: Bytes, zs: seq<Bytes>)
    requires Inverts(crypto) && IsStream(crypto)
    requires Concat(zs) == Encrypt(crypto, c, x).0
    ensures Concat(ReceiverStream(crypto, c, zs)) == x
    decreases |zs|
  {
    if |zs| == 0 {
      assert |Encrypt(crypto, c, x).0| == |x|;
    } else {
      var k := |zs[0]|;
      FirstChunk(crypto, c, x, zs);
      var c1 := Encrypt(crypto, c, x[..k]).1;
      EncryptDecrypt(crypto, c, x[..k]);
      ReadStream(crypto, c1, x[k..], zs[1..]);
      assert x[..k] + x[k..] == x;
    }
  }

  /** The proxy over a byte stream: whichever reads the ciphertext of `x`
      arrives in, the proxy forwards to the other side exactly the
      ciphertext of `x` under its cipher towards that side, and sends
      nothing back to the sender. */
  lemma {:induction false} FeedRelay(env: Env, s: Session, side: Side, d: CipherState, c: CipherState,
                                     x: Bytes, ys: seq<Bytes>)
    requires Inverts(env.crypto) && IsStream(env.crypto) && Inv(s) && LinkOf(s, side).encryptionOn
    requires LinkOf(s, side).decipher == Some(d) && LinkOf(s, Opposite(side)).cipher == Some(c)
    requires Concat(ys) == Encrypt(env.crypto, d, x).0
    ensures var r := Feed(env, s, side, ys);
            && r.Running?
            && Concat(SentTo(r.effects, Opposite(side))) == Encrypt(env.crypto, c, x).0
            && SentTo(r.effects, side) == []
    decreases |ys|
  {
    if |ys| == 0 {
      assert |Encrypt(env.crypto, d, x).0| == |x|;
      assert |Encrypt(env.crypto, c, x).0| == |x|;
    } else {
      var k := |ys[0]|;
      FirstChunk(env.crypto, d, x, ys);
      var d1 := Encrypt(env.crypto, d, x[..k]).1;
      var c1 := Encrypt(env.crypto, c, x[..k]).1;
      RelayStep(env, s, side, d, c, x[..k]);
      var o := DataReceived(env, s, side, ys[0]);
      FeedRelay(env, o.session, side, d1, c1, x[k..], ys[1..]);
      var tail := Feed(env, o.session, side, ys[1..]);
      assert Feed(env, s, side, ys) == Prefix(o.effects, tail);
      SentToAppend(o.effects, tail.effects, Opposite(side));
      SentToAppend(o.effects, tail.effects, side);
      ConcatAppend(SentTo(o.effects, Opposite(side)), SentTo(tail.effects, Opposite(side)));
      EncryptSplit(env.crypto, c, x, k);
    }
  }

  /** Relay transparency over TCP: one endpoint writes plaintext chunks
      `xs`, the network delivers their ciphertext to the proxy cut into any
      reads `ys`, and the proxy's writes reach the other endpoint cut into
      any reads `zs`. Reading from the state of the proxy's cipher towards
      it, the other endpoint gets back exactly the bytes written, in order. */
  lemma RelayResegmented(env: Env, s: Session, side: Side, d: CipherState, c: CipherState,
                         xs: seq<Bytes>, ys: seq<Bytes>, zs: seq<Bytes>)
    requires Inverts(env.crypto) && IsStream(env.crypto) && Inv(s) && LinkOf(s, side).encryptionOn
    requires LinkOf(s, side).decipher == Some(d) && LinkOf(s, Opposite(side)).cipher == Some(c)
    requires Concat(ys) == Concat(SenderStream(env.crypto, d, xs))
    requires Concat(zs) == Concat(SentTo(Feed(env, s, side, ys).effects, Opposite(side)))
    ensures Feed(env, s, side, ys).Running?
    ensures SentTo(Feed(env, s, side, ys).effects, side) == []
    ensures Concat(ReceiverStream(env.crypto, c, zs)) == Concat(xs)
  {
    SenderConcat(env.crypto, d, xs);
    FeedRelay(env, s, side, d, c, Concat(xs), ys);
    ReadStream(env.crypto, c, Concat(xs), zs);
  }
}

=== FILE: proxy_session.dfy ===
/** The man-in-the-middle handshake and relay of proxy.py, as a pure
    transition function over the pair of protocol objects of one proxied
    connection: `ProxyClientProtocol` (facing the real client) and
    `ProxyServerProtocol` (facing the real server). */
module ProxySession {
  import opened Wrappers
  import opened ProxyWire

  /** Which real endpoint a protocol object faces (`mgsside`). */
  datatype Side = ClientSide | ServerSide

  function Opposite(side: Side): (r: Side)
    ensures r != side
  {
    if side == ClientSide then ServerSide else ClientSide
  }

  /** Which of the two stream handlers `self.parser` is bound to. */
  datatype Parser = PlainParser | EncryptedParser

  /** One protocol object. `cipher` and `decipher` are attributes the Python
      object only acquires during the handshake, hence `Option`. */
  datatype Link = Link(encryptionOn: bool, parser: Parser, leftover: Bytes,
                       cipher: Option<CipherState>, decipher: Option<CipherState>)

  /** A protocol object as `__init__` leaves it: encryption off, the
      plaintext parser, an empty `leftover`, no cipher yet. */
  const NewLink := Link(false, PlainParser, [], None, None)

  /** `enc_shared_sercet` and `enc_4bytes` of the server-facing object. */
  datatype PendingReply = PendingReply(encSharedSecret: Bytes, encToken: Bytes)

  /** What `ProxyClientFactory` holds: the real server's host and port, and
      the RSA key pair generated once per factory, shared by every
      connection it accepts. */
  datatype Config = Config(host: Bytes, port: int, rsaKey: RsaKeyPair)

  /** Everything a transition consults but never changes. */
  datatype Env = Env(config: Config, codec: Codec, crypto: Crypto)

  /** The state of one proxied connection. `serverConnected` is false while
      `proxyserver.protocol` is still `None`; `draws` counts the calls made
      to the random source so far. */
  datatype Session = Session(client: Link, server: Link, serverConnected: bool,
                             pending: Option<PendingReply>, draws: nat)

  /** The session right after the client connection is accepted. */
  const Initial := Session(NewLink, NewLink, false, None, 0)

  /** What a transition does outside the session: bytes written to one
      transport, or one call of `processor.process_packets`. */
  datatype Effect =
    | Sent(to: Side, bytes: Bytes)
    | Processed(side: Side, packets: seq<Packet>, encrypted: bool, leftover: Bytes)

  /** The result of a transition. `Crashed` is an exception escaping into
      `dataReceived`, whose handler passes it to `exit_on_error`; what that
      does is not modelled. The effects that happened before it are kept. */
  datatype Outcome =
    | Running(session: Session, effects: seq<Effect>)
    | Crashed(effects: seq<Effect>)

  /** The events the reactor delivers to one session. */
  datatype Event =
    | ClientData(bytes: Bytes)     // bytes from the real client
    | ServerConnected              // the connection to the real server is made
    | ServerData(bytes: Bytes)     // bytes from the real server

  function LinkOf(s: Session, side: Side): Link {
    if side == ClientSide then s.client else s.server
  }

  function WithLink(s: Session, side: Side, l: Link): (r: Session)
    ensures LinkOf(r, side) == l && LinkOf(r, Opposite(side)) == LinkOf(s, Opposite(side))
    ensures r.serverConnected == s.serverConnected && r.pending == s.pending && r.draws == s.draws
  {
    if side == ClientSide then s.(client := l) else s.(server := l)
  }

  /** Puts `e` in front of an outcome's effects. */
  function Prefix(e: seq<Effect>, o: Outcome): (r: Outcome)
    ensures r.Running? <==> o.Running?
    ensures r.Running? ==> r.session == o.session
    ensures r.effects == e + o.effects
  {
    match o
    case Running(s, e2) => Running(s, e + e2)
    case Crashed(e2) => Crashed(e + e2)
  }

  // ---------------------------------------------------------------------
  // Invariants

  /** `self.parser` is the encrypted handler exactly when `encryption_on`. */
  predicate ParserMatches(l: Link) {
    l.parser == (if l.encryptionOn then EncryptedParser else PlainParser)
  }

  /** What holds of every session the proxy reaches: each parser agrees with
      its flag, the two flags are equal (they are only ever switched
      together), and before the server connection exists nothing but the
      client's buffer has changed. */
  predicate Inv(s: Session) {
    && ParserMatches(s.client) && ParserMatches(s.server)
    && s.client.encryptionOn == s.server.encryptionOn
    && (!s.serverConnected ==> !s.client.encryptionOn && s.server == NewLink && s.pending.None?)
  }

  /** How a session may change over time: encryption is never switched off,
      the server connection is never forgotten, the random source is never
      rewound, and a stored reply is never discarded. */
  predicate Evolves(s: Session, s': Session) {
    && (s.client.encryptionOn ==> s'.client.encryptionOn)
    && (s.server.encryptionOn ==> s'.server.encryptionOn)
    && (s.serverConnected ==> s'.serverConnected)
    && s.draws <= s'.draws
    && (s.pending.Some? ==> s'.pending.Some?)
  }

  /** Both encryption flags are as they were. */
  predicate SameFlags(s: Session, s': Session) {
    s'.client.encryptionOn == s.client.encryptionOn && s'.server.encryptionOn == s.server.encryptionOn
  }

  /** Both `leftover` buffers are as they were: only the parsers touch them. */
  predicate SameBuffers(s: Session, s': Session) {
    s'.client.leftover == s.client.leftover && s'.server.leftover == s.server.leftover
  }

  // ---------------------------------------------------------------------
  // ProxyProtocol

  /** `sendData(bytestream)` on the object facing `side`: the bytes go out
      unchanged while encryption is off, and through that object's cipher
      once it is on. */
  function SendData(env: Env, s: Session, side: Side, data: Bytes): (r: Outcome)
    ensures !LinkOf(s, side).encryptionOn ==> r == Running(s, [Sent(side, data)])
    ensures LinkOf(s, side).encryptionOn && LinkOf(s, side).cipher.None? ==> r == Crashed([])
    ensures LinkOf(s, side).encryptionOn && LinkOf(s, side).cipher.Some? ==>
      var c := LinkOf(s, side).cipher.value;
      && r.Running?
      && r.effects == [Sent(side, env.crypto.streamEncrypt(c.key, c.iv, c.sofar, data))]
      && LinkOf(r.session, side).cipher == Some(c.(sofar := c.sofar + data))
    ensures r.Running? ==> LinkOf(r.session, side) == LinkOf(s, side).(cipher := LinkOf(r.session, side).cipher)
    ensures r.Running? ==> r.session == WithLink(s, side, LinkOf(r.session, side))
  {
    var l := LinkOf(s, side);
    if !l.encryptionOn then Running(s, [Sent(side, data)])
    else if l.cipher.None? then Crashed([])
    else
      var (out, c') := Encrypt(env.crypto, l.cipher.value, data);
      Running(WithLink(s, side, l.(cipher := Some(c'))), [Sent(side, out)])
  }

  /** `start_encryption()`: the flag goes on and the encrypted parser is
      installed; nothing else about the object changes. */
  function StartEncryption(l: Link): (r: Link)
    ensures r.encryptionOn && r.parser == EncryptedParser
    ensures r.leftover == l.leftover && r.cipher == l.cipher && r.decipher == l.decipher
  {
    l.(encryptionOn := true, parser := EncryptedParser)
  }

  /** `parse_encrypted_stream(bytestream)` on the object facing `side`: the
      bytes are decrypted, the plaintext is handed unchanged to the opposite
      object's `sendData`, and only then appended to `leftover` and parsed
      for the processor. No packet is acted upon. */
  function ParseEncrypted(env: Env, s: Session, side: Side, bytes: Bytes): (r: Outcome)
    ensures LinkOf(s, side).decipher.None? ==> r == Crashed([])
    ensures LinkOf(s, side).decipher.Some? ==>
      var (plain, d') := Decrypt(env.crypto, LinkOf(s, side).decipher.value, bytes);
      var fwd := SendData(env, s, Opposite(side), plain);
      && (fwd.Crashed? ==> r == Crashed(fwd.effects))
      && (fwd.Running? ==>
            var (pkts, rest) := env.codec.parse(LinkOf(s, side).leftover + plain);
            && r.Running?
            && r.effects == fwd.effects + [Processed(side, pkts, true, rest)]
            && LinkOf(r.session, side) == LinkOf(s, side).(decipher := Some(d'), leftover := rest)
            && r.session == WithLink(fwd.session, side, LinkOf(r.session, side)))
  {
    var l := LinkOf(s, side);
    if l.decipher.None? then Crashed([])
    else
      var (plain, d') := Decrypt(env.crypto, l.decipher.value, bytes);
      var s1 := WithLink(s, side, l.(decipher := Some(d')));
      match SendData(env, s1, Opposite(side), plain)
      case Crashed(e) => Crashed(e)
      case Running(s2, e) =>
        var l2 := LinkOf(s2, side);
        var (pkts, rest) := env.codec.parse(l2.leftover + plain);
        Running(WithLink(s2, side, l2.(leftover := rest)), e + [Processed(side, pkts, true, rest)])
  }

  // ---------------------------------------------------------------------
  // ProxyServerProtocol

  /** The substitute key request sent to the client: the server's request
      with the proxy's exported public key and a fresh 4-byte token drawn
      from the random source (`send_encryption_key_request`). */
  function SubstituteRequest(env: Env, c: KeyRequestFields, draw: nat): (r: KeyRequestFields)
    ensures r.publicKey == env.crypto.exportPublicKey(env.config.rsaKey)
    ensures r.publicKeyLength == |r.publicKey|
    ensures r.tokenLength == 4
    ensures r.verifyToken == env.crypto.randomBytes(draw, Some(4))
    ensures r.rest == c.rest
  {
    var pub := env.crypto.exportPublicKey(env.config.rsaKey);
    c.(publicKeyLength := |pub|, publicKey := pub, tokenLength := 4,
       verifyToken := env.crypto.randomBytes(draw, Some(4)))
  }

  /** A 253 packet from the server: `on_encryption_key_request` on the
      server-facing object, then `send_encryption_key_request` on the
      client-facing one. */
  function OnServerKeyRequest(env: Env, s: Session, c: KeyRequestFields): (r: Outcome)
    ensures r.Running? ==>
      var key := env.crypto.randomBytes(s.draws, None);
      && r.session.draws == s.draws + 2
      && r.session.server.cipher == Some(MakeAes(key, key))
      && r.session.server.decipher == Some(MakeAes(key, key))
      && r.session.pending == Some(PendingReply(env.crypto.rsaEncrypt(key, c.publicKey),
                                                env.crypto.rsaEncrypt(c.verifyToken, c.publicKey)))
    ensures !s.client.encryptionOn ==>
      && r.Running?
      && r.effects == [Sent(ClientSide, env.codec.build(KeyRequest(SubstituteRequest(env, c, s.draws + 1))))]
      && SubstituteRequest(env, c, s.draws + 1).verifyToken == env.crypto.randomBytes(s.draws + 1, Some(4))
  {
    // STEP 2.1: a fresh AES key for the server side
    var aesKey := env.crypto.randomBytes(s.draws, None);
    var server := s.server.(cipher := Some(MakeAes(aesKey, aesKey)),
                            decipher := Some(MakeAes(aesKey, aesKey)));
    var pending := PendingReply(env.crypto.rsaEncrypt(aesKey, c.publicKey),
                                env.crypto.rsaEncrypt(c.verifyToken, c.publicKey));
    var s1 := s.(server := server, pending := Some(pending), draws := s.draws + 1);
    // STEP 2.2: our own key towards the client
    var substitute := SubstituteRequest(env, c, s1.draws);
    SendData(env, s1.(draws := s1.draws + 1), ClientSide, env.codec.build(KeyRequest(substitute)))
  }

  /** A 252 packet from the server, its confirmation: the whole buffer is
      forwarded to the client and both objects start encryption. */
  function OnServerConfirm(env: Env, s: Session, data: Bytes): (r: Outcome)
    ensures r.Running? ==> r.session.client.encryptionOn && r.session.server.encryptionOn
  {
    match SendData(env, s, ClientSide, data)
    case Crashed(e) => Crashed(e)
    case Running(s1, e) =>
      Running(s1.(server := StartEncryption(s1.server), client := StartEncryption(s1.client)), e)
  }

  /** One iteration of the packet loop of `ProxyServerProtocol.parse_stream`;
      `data` is the whole buffer the batch was parsed from. */
  function HandleServerPacket(env: Env, s: Session, data: Bytes, p: Packet): (r: Outcome)
    ensures r.Running? ==> Evolves(s, r.session) && r.session.serverConnected == s.serverConnected
    ensures r.Running? && Inv(s) && s.serverConnected ==> Inv(r.session)
    ensures r.Running? && !p.KeyResponse? ==> SameFlags(s, r.session)
    ensures r.Running? ==> SameBuffers(s, r.session)
  {
    if Id(p) == 253 then OnServerKeyRequest(env, s, p.req)
    else if Id(p) == 252 then OnServerConfirm(env, s, data)
    else if Id(p) == 254 || Id(p) == 255 then SendData(env, s, ClientSide, data)
    else Running(s, [])   // "cannot be unencrypted": logged, not forwarded
  }

  // ---------------------------------------------------------------------
  // ProxyClientProtocol

  /** The handshake sent to the server: the client's, with the destination
      replaced by the configured server host and port (`send_handshake`). */
  function RewriteHandshake(env: Env, h: HandshakeFields): (r: HandshakeFields)
    ensures r.serverHost == env.config.host && r.serverPort == env.config.port
    ensures r.rest == h.rest
  {
    h.(serverHost := env.config.host, serverPort := env.config.port)
  }

  /** The key response sent to the server: the stored secret and token,
      each with its length (`send_encryption_key_response`). */
  function KeyResponseFor(reply: PendingReply): (r: KeyResponseFields)
    ensures r.sharedSecret == reply.encSharedSecret && r.sharedLength == |reply.encSharedSecret|
    ensures r.tokenSecret == reply.encToken && r.tokenLength == |reply.encToken|
  {
    KeyResponseFields(|reply.encSharedSecret|, reply.encSharedSecret, |reply.encToken|, reply.encToken)
  }

  /** A 252 packet from the client: `on_encryption_key_responce` keys the
      client-facing ciphers with the secret decrypted under the proxy's RSA
      key, then the server is sent the stored reply. Before any 253 from the
      server there is no stored reply and the attribute lookup fails. */
  function OnClientKeyResponse(env: Env, s: Session, c: KeyResponseFields): (r: Outcome)
    ensures s.pending.None? ==> r == Crashed([])
  {
    // STEP 3.1
    var aesKey := env.crypto.rsaDecrypt(c.sharedSecret, env.config.rsaKey);
    var s1 := s.(client := s.client.(cipher := Some(MakeAes(aesKey, aesKey)),
                                     decipher := Some(MakeAes(aesKey, aesKey))));
    // STEP 3.2
    if s1.pending.None? then Crashed([])
    else SendData(env, s1, ServerSide, env.codec.build(KeyResponse(KeyResponseFor(s1.pending.value))))
  }

  /** One iteration of the packet loop of `ProxyClientProtocol.parse_stream`. */
  function HandleClientPacket(env: Env, s: Session, data: Bytes, p: Packet): (r: Outcome)
    ensures r.Running? ==> Evolves(s, r.session) && r.session.serverConnected == s.serverConnected
    ensures r.Running? ==> SameFlags(s, r.session) && r.session.pending == s.pending
    ensures r.Running? && Inv(s) ==> Inv(r.session)
    ensures r.Running? ==> SameBuffers(s, r.session)
  {
    if Id(p) == 252 then OnClientKeyResponse(env, s, p.resp)
    else if Id(p) == 2 then SendData(env, s, ServerSide, env.codec.build(Handshake(RewriteHandshake(env, p.hs))))
    else if Id(p) == 254 || Id(p) == 255 then SendData(env, s, ServerSide, data)
    else Running(s, [])   // "cannot be unencrypted": logged, not forwarded
  }

  // ---------------------------------------------------------------------
  // The plaintext parsers

  function HandlePacket(env: Env, side: Side, s: Session, data: Bytes, p: Packet): (r: Outcome)
    ensures r.Running? ==> Evolves(s, r.session) && r.session.serverConnected == s.serverConnected
    ensures r.Running? && Inv(s) && s.serverConnected ==> Inv(r.session)
    ensures r.Running? && (side == ClientSide || !p.KeyResponse?) ==> SameFlags(s, r.session)
    ensures r.Running? ==> SameBuffers(s, r.session)
  {
    if side == ClientSide then HandleClientPacket(env, s, data, p)
    else HandleServerPacket(env, s, data, p)
  }

  /** No packet of the batch is a 252. */
  predicate NoConfirm(pkts: seq<Packet>) {
    forall i :: 0 <= i < |pkts| ==> !pkts[i].KeyResponse?
  }

  /** The `for p in parsed_packets` loop: each packet in order, each seeing
      the session the previous one left; the first crash ends it. */
  function HandlePackets(env: Env, side: Side, s: Session, data: Bytes, pkts: seq<Packet>): (r: Outcome)
    ensures r.Running? ==> Evolves(s, r.session) && r.session.serverConnected == s.serverConnected
    ensures r.Running? && Inv(s) && s.serverConnected ==> Inv(r.session)
    ensures r.Running? && (side == ClientSide || NoConfirm(pkts)) ==> SameFlags(s, r.session)
    ensures r.Running? ==> SameBuffers(s, r.session)
    decreases |pkts|
  {
    if |pkts| == 0 then Running(s, [])
    else
      match HandlePacket(env, side, s, data, pkts[0])
      case Crashed(e) => Crashed(e)
      case Running(s1, e) => Prefix(e, HandlePackets(env, side, s1, data, pkts[1..]))
  }

  /** `parse_stream(bytestream)` of either object. The client-facing one
      only buffers while the server connection does not exist yet. */
  function ParsePlain(env: Env, s: Session, side: Side, bytes: Bytes): (r: Outcome)
    ensures side == ClientSide && !s.serverConnected ==>
      r == Running(s.(client := s.client.(leftover := s.client.leftover + bytes)), [])
    ensures side == ServerSide || s.serverConnected ==>
      var (pkts, rest) := env.codec.parse(LinkOf(s, side).leftover + bytes);
      && |r.effects| > 0 && r.effects[0] == Processed(side, pkts, false, rest)
      && (r.Running? && (side == ClientSide || NoConfirm(pkts)) ==> SameFlags(s, r.session))
      && (r.Running? ==> LinkOf(r.session, side).leftover == rest)
    ensures r.Running? ==> Evolves(s, r.session) && r.session.serverConnected == s.serverConnected
    ensures r.Running? && Inv(s) && (side == ServerSide ==> s.serverConnected) ==> Inv(r.session)
  {
    if side == ClientSide && !s.serverConnected then
      Running(s.(client := s.client.(leftover := s.client.leftover + bytes)), [])
    else
      var l := LinkOf(s, side);
      var data := l.leftover + bytes;
      var (pkts, rest) := env.codec.parse(data);
      var s1 := WithLink(s, side, l.(leftover := rest));
      Prefix([Processed(side, pkts, false, rest)], HandlePackets(env, side, s1, data, pkts))
  }

  /** `dataReceived(bytestream)`: whichever parser the object holds. */
  function DataReceived(env: Env, s: Session, side: Side, bytes: Bytes): (r: Outcome)
    ensures r.Running? ==> Evolves(s, r.session) && r.session.serverConnected == s.serverConnected
    ensures r.Running? && Inv(s) && (side == ServerSide ==> s.serverConnected) ==> Inv(r.session)
  {
    if LinkOf(s, side).parser == EncryptedParser then ParseEncrypted(env, s, side, bytes)
    else ParsePlain(env, s, side, bytes)
  }

  /** Whether the reactor can deliver `ev` now: server bytes only on a made
      connection, and the connection is made once. */
  predicate Enabled(s: Session, ev: Event) {
    match ev
    case ServerData(_) => s.serverConnected
    case ServerConnected => !s.serverConnected
    case ClientData(_) => true
  }

  /** One reactor callback. When the server connection is made, the server
      object is built and its `connectionMade` feeds the client object an
      empty chunk, so whatever the client object buffered is parsed. */
  function Step(env: Env, s: Session, ev: Event): (r: Outcome)
    requires Enabled(s, ev)
    ensures r.Running? && Inv(s) ==> Inv(r.session) && Evolves(s, r.session)
    ensures r.Running? && ev.ServerConnected? ==> r.session.serverConnected
    ensures ev.ClientData? ==> r == DataReceived(env, s, ClientSide, ev.bytes)
    ensures ev.ServerData? ==> r == DataReceived(env, s, ServerSide, ev.bytes)
    ensures ev.ServerConnected? ==>
      r == DataReceived(env, s.(serverConnected := true, server := NewLink), ClientSide, [])
  {
    match ev
    case ClientData(b) => DataReceived(env, s, ClientSide, b)
    case ServerData(b) => DataReceived(env, s, ServerSide, b)
    case ServerConnected => DataReceived(env, s.(serverConnected := true, server := NewLink), ClientSide, [])
  }
}

=== FILE: proxy_wire.dfy ===
/** What the proxy of proxy.py exchanges with its collaborators: bytes,
    decoded packets, and the packet codec and crypto provider it calls.

    The codec (`parse_packets`, `make_packet`, `packets[..].build`) and the
    crypto provider (`encryption.*`) are not part of this model; they are
    passed in as records of functions, so every statement about the proxy
    holds for whatever codec and cipher it is run with. */
module ProxyWire {
  import opened Wrappers

  newtype byte = x: int | 0 <= x < 256

  type Bytes = seq<byte>

  /** Packet ids the proxy reads no fields of. The ids it does read (2, 252,
      253) have their own packet variants below, so a packet's fields always
      match its id, as is assumed of the codec. */
  type OtherId = id: byte | id != 2 && id != 252 && id != 253

  /** Handshake (id 2). `rest` stands for the fields the proxy never touches. */
  datatype HandshakeFields = HandshakeFields(serverHost: Bytes, serverPort: int, rest: Bytes)

  /** Encryption key request (id 253). `rest` stands for the untouched fields. */
  datatype KeyRequestFields = KeyRequestFields(publicKeyLength: int, publicKey: Bytes,
                                               tokenLength: int, verifyToken: Bytes, rest: Bytes)

  /** Encryption key response (id 252); the server's confirmation is a 252
      packet too, with empty fields. */
  datatype KeyResponseFields = KeyResponseFields(sharedLength: int, sharedSecret: Bytes,
                                                 tokenLength: int, tokenSecret: Bytes)

  /** A decoded packet: the pair `(id, fields)` that `parse_packets` yields. */
  datatype Packet =
    | Handshake(hs: HandshakeFields)
    | KeyRequest(req: KeyRequestFields)
    | KeyResponse(resp: KeyResponseFields)
    | Other(id: OtherId, payload: Bytes)

  /** The packet id, `p[0]` in the source. */
  function Id(p: Packet): (r: byte)
    ensures r == 2 <==> p.Handshake?
    ensures r == 253 <==> p.KeyRequest?
    ensures r == 252 <==> p.KeyResponse?
  {
    match p
    case Handshake(_) => 2
    case KeyRequest(_) => 253
    case KeyResponse(_) => 252
    case Other(id, _) => id
  }

  /** The packet codec. `parse` splits a buffer into the complete packets at
      its front and the undecoded remainder; `build` encodes one packet,
      id byte included. */
  datatype Codec = Codec(parse: Bytes -> (seq<Packet>, Bytes), build: Packet -> Bytes)

  /** The proxy's RSA key pair, opaque to the model. */
  datatype RsaKeyPair = RsaKeyPair(material: Bytes)

  /** The crypto provider.
      - `randomBytes(n, len)`: the n-th draw from the random source, of the
        requested length or, for `None`, of the library's default length;
      - `streamEncrypt(key, iv, sofar, chunk)` / `streamDecrypt(...)`: the
        stream cipher applied to `chunk` after `sofar` plaintext bytes have
        passed through the same cipher object;
      - `rsaEncrypt(data, publicKey)`: encryption under a public key as it
        appears on the wire (`load_pubkey` folded in);
      - `rsaDecrypt(data, keyPair)`, `exportPublicKey(keyPair)`. */
  datatype Crypto = Crypto(
    randomBytes: (nat, Option<nat>) -> Bytes,
    streamEncrypt: (Bytes, Bytes, Bytes, Bytes) -> Bytes,
    streamDecrypt: (Bytes, Bytes, Bytes, Bytes) -> Bytes,
    rsaEncrypt: (Bytes, Bytes) -> Bytes,
    rsaDecrypt: (Bytes, RsaKeyPair) -> Bytes,
    exportPublicKey: RsaKeyPair -> Bytes)

  /** One stateful cipher object. A deterministic stream cipher's output is
      determined by its key, its IV and the plaintext it has already
      processed, so that is the state kept. */
  datatype CipherState = CipherState(key: Bytes, iv: Bytes, sofar: Bytes)

  /** `make_aes(key, iv)`: a fresh cipher object at stream position 0. */
  function MakeAes(key: Bytes, iv: Bytes): (c: CipherState)
    ensures c.key == key && c.iv == iv && |c.sofar| == 0
  {
    CipherState(key, iv, [])
  }

  /** `cipher.encrypt(chunk)`: the ciphertext and the advanced cipher object. */
  function Encrypt(crypto: Crypto, c: CipherState, chunk: Bytes): (r: (Bytes, CipherState))
    ensures r.1.key == c.key && r.1.iv == c.iv && r.1.sofar == c.sofar + chunk
  {
    (crypto.streamEncrypt(c.key, c.iv, c.sofar, chunk), c.(sofar := c.sofar + chunk))
  }

  /** `decipher.decrypt(chunk)`: the plaintext and the advanced cipher object. */
  function Decrypt(crypto: Crypto, c: CipherState, chunk: Bytes): (r: (Bytes, CipherState))
    ensures r.1.key == c.key && r.1.iv == c.iv && r.1.sofar == c.sofar + r.0
  {
    var plain := crypto.streamDecrypt(c.key, c.iv, c.sofar, chunk);
    (plain, c.(sofar := c.sofar + plain))
  }

  /** The stream cipher undoes itself: decrypting, at the same stream
      position and under the same key and IV, what was encrypted yields the
      plaintext. */
  ghost predicate Inverts(crypto: Crypto) {
    forall key, iv, sofar, chunk ::
      crypto.streamDecrypt(key, iv, sofar, crypto.streamEncrypt(key, iv, sofar, chunk)) == chunk
  }

  /** Under an inverting cipher, two cipher objects in the same state stay in
      the same state across an encrypt/decrypt pair, and the decrypting one
      recovers the plaintext. */
  lemma EncryptDecrypt(crypto: Crypto, c: CipherState, chunk: Bytes)
    requires Inverts(crypto)
    ensures Decrypt(crypto, c, Encrypt(crypto, c, chunk).0) == (chunk, Encrypt(crypto, c, chunk).1)
  {
  }

  /** A stream cipher in the strict sense: the ciphertext is as long as the
      plaintext, and encrypting `a + b` is encrypting `a` and then `b` from
      the advanced position, so how the plaintext is cut into calls does not
      change the bytes on the wire. */
  ghost predicate IsStream(crypto: Crypto) {
    && (forall key, iv, sofar, chunk :: |crypto.streamEncrypt(key, iv, sofar, chunk)| == |chunk|)
    && (forall key, iv, sofar, a, b ::
          crypto.streamEncrypt(key, iv, sofar, a + b) ==
          crypto.streamEncrypt(key, iv, sofar, a) + crypto.streamEncrypt(key, iv, sofar + a, b))
  }

  /** Cutting a plaintext at `k` cuts its ciphertext at `k`: the first `k`
      ciphertext bytes encrypt the first `k` plaintext bytes, and the rest
      encrypts the rest from the advanced cipher object. */
  lemma EncryptSplit(crypto: Crypto, c: CipherState, x: Bytes, k: nat)
    requires IsStream(crypto) && k <= |x|
    ensures var (y1, c1) := Encrypt(crypto, c, x[..k]);
            && |y1| == k && |Encrypt(crypto, c, x).0| == |x|
            && Encrypt(crypto, c, x).0 == y1 + Encrypt(crypto, c1, x[k..]).0
            && Encrypt(crypto, c1, x[k..]).1 == Encrypt(crypto, c, x).1
  {
    assert x[..k] + x[k..] == x;
    assert c.sofar + x[..k] + x[k..] == c.sofar + x;
  }

  /** RSA decryption with the proxy's key pair undoes encryption under the
      public key it exports. */
  ghost predicate RsaInverts(crypto: Crypto, keyPair: RsaKeyPair) {
    forall data :: crypto.rsaDecrypt(crypto.rsaEncrypt(data, crypto.exportPublicKey(keyPair)), keyPair) == data
  }
}

=== FILE: wrappers.dfy ===
/** Optional values, used for the source's `None` arguments and for
    attributes a protocol object only acquires part-way through a session. */
module Wrappers {

  datatype Option<+T> = None | Some(value: T) {

    /** The carried value, or `default` when there is none. */
    function GetOr(default: T): T {
      match this
      case Some(v) => v
      case None => default
    }
  }
}
